=== FILE: README.md ===
# mediacloud API client — a Dafny model

This project models the request-building and response-checking core of the
Media Cloud Python API client, in both of its versions:

- the legacy client (`mediacloud_legacy/api.py`), module `LegacyApi`;
- the current client (`mediacloud/api.py`), module `CurrentApi`;
- the tag specifications (`mediacloud/tags.py`), module `Tags`;
- the story store (`mediacloud/storage.py`), module `Storage`.

Logic the two clients share lives in its own modules:

- `Transport`: the client state, the wire request `_query` hands to the HTTP
  library, the URL-length measure behind the switch from GET to POST, the
  injection of `key` and `all_fields`, and the checks on the response;
- `Arguments`: `_validate_params`, `_validate_bool_params`, the allow-list
  validators, `_remove_private_info` and `_chunkify`;
- `SolrDates`: `_zi_time` and `_solr_date_range`, each with a parser that
  inverts it;
- `Media`: the field cleaning of `mediaCreate` and `mediaUpdate`;
- `Metadata`: `_tagsOn*`, `_firstTagOn*` and `_addMetadataTagsTo*List`.

Three modules supply the vocabulary:

- `Wrappers`: `Option` and `Result`;
- `Dicts`: a Python dict as an ordered list of pairs, where assignment
  replaces a value in place or appends a new pair;
- `PyValues`: a JSON value type, plus Python's `==` (True equals 1),
  truthiness, `len`, `in`, subscripts, iteration and `str`.

A Python call that can raise is a `Py<T>`. It holds either the result or one
of the exceptions `MCException(message, status)`, `ValueError`, `TypeError`,
`KeyError` or `AttributeError`.

Modelling choices:

- The HTTP call is a parameter, `server: WireRequest -> Response`.
  The legacy `QueryForJson` is proved to hand back exactly what `Interpret`
  makes of that response; the current one goes through `InterpretLogged`,
  which differs only for an error envelope whose message is not a string.
- `datetime.strptime` is the parameter `DateError`. It maps a string to
  `None` when the string parses and to the exception text otherwise.
- `StoryDatabase` is a map from each record's `stories_id` value to the
  record, which is how the one concrete adapter finds stories.
- `_query` treats `params=None` as `{}`. Here callers pass an empty dict
  instead.

Where the source compares strings or integers with `is`, the model reads it
as `==` (CPython interns these short literals and small integers, so the two
agree). The lines affected are:

- `http_method is not 'POST'` at `mediacloud/api.py:461`;
- `http_method is 'GET'`, `is 'PUT_JSON'`, `is 'PUT'` and `is 'POST'` at
  `mediacloud/api.py:465`, `475`, `490` and `496`;
- the status check `r.status_code is not requests.codes['ok']` at
  `mediacloud_legacy/api.py:484` and `mediacloud/api.py:505`.

A comparison with `True` by `is` is modelled as identity, not as Python's
`==`: `x is True` holds for the boolean True alone, never for the integer 1.
This covers `1 if params[arg] is True else 0` in `_validate_bool_params`
(`mediacloud_legacy/api.py:1123`, `mediacloud/api.py:1023`), the
`1 if wc is True else 0` family, and `params['split'] is True` at
`mediacloud/api.py:567`. Read as `==`, that last test would accept the 1 that
`_validate_bool_params` leaves behind; read as identity it never holds, which
is the second finding below.

Two places where the model follows the code rather than the documentation:

- The current client's constructor (`mediacloud/api.py:34-37`) does not
  refuse a missing token. Only the legacy one does.
- `mediacloud/test/api_misc_test.py:26-58` exercises `publish_date_query`
  with a `field` argument and a `publish_day` default. Those belong to the
  legacy signature, so that test is cited for `LegacyApi`. The current
  `publish_date_query` always uses the field `publish_date`.

## Model

| member | source | states |
|---|---|---|
| Dicts.Set | mediacloud/storage.py:25-27 | After `d[k] = v`, `k` maps to `v` and every other key is unchanged. An existing key keeps its place; a new key is appended. |
| Dicts.Update | mediacloud/storage.py:24 | `d.update(e)` leaves every key outside `e` unchanged and adds every key of `e`. |
| Dicts.UpdateTakesNewValues | mediacloud/storage.py:24 | After `update`, each key of `e` holds `e`'s value. |
| Dicts.UpdateFreshKeysAppends | mediacloud/tags.py:77-78 | Updating with keys that are all new appends them in order. |
| Arguments.ValidateParams | mediacloud_legacy/api.py:1088-1093 | Raises ValueError exactly when some argument name is not allowed. On success, every argument is copied in and every other parameter is untouched. |
| Arguments.ValidateParamsNamesFirstInvalid | mediacloud_legacy/api.py:1089-1091 | The error names the first argument that is not allowed, and every argument before it is allowed. |
| Arguments.ValidateBoolParams | mediacloud_legacy/api.py:1118-1124 | Fails exactly when a listed parameter is present and is neither True, False, 1 nor 0. The ValueError names the first such parameter in the order listed. Otherwise the keys are the same, listed values become 1 or 0, and everything else is unchanged. |
| Arguments.BoolParamsConvert | mediacloud_legacy/api.py:1123 | A listed parameter is sent as 1 when it `is True` and as 0 otherwise. |
| Arguments.BoolParamsIntegerOneSentAsZero | mediacloud_legacy/api.py:1121-1123 | The integer 1 passes the check, because it `==` True, yet it is sent as 0. |
| Arguments.ValidateStringChoice | mediacloud_legacy/api.py:1096-1099 | `x not in [None, …]`: accepts exactly None (where listed) or a listed string, hands the value back, and otherwise raises the given ValueError. |
| Arguments.ChoiceAmongStrings | mediacloud_legacy/api.py:1103 | Over a list of strings, Python's `in` accepts exactly the strings in the list. |
| Arguments.ValidateSort | mediacloud_legacy/api.py:1102-1104 | Accepts exactly None, `social` or `inlink`, in both clients (`mediacloud/api.py:1003-1005` is the same). |
| Arguments.ValidatePermission | mediacloud_legacy/api.py:1113-1115 | Accepts exactly one of none/read/write/admin; None is refused. The same in both clients. |
| Arguments.RemovePrivateInfo | mediacloud_legacy/api.py:1139-1146 | None stays None. A dict loses exactly `password` and `key`. Anything else is returned unchanged. |
| Arguments.RemovePrivateInfoIdempotent | mediacloud_legacy/api.py:1139-1146 | Removing private information twice is the same as removing it once. |
| Arguments.Chunkify | mediacloud_legacy/api.py:1083-1085 | A positive size gives chunks that concatenate back to the data: ceil(n/size) chunks, all full except a non-empty last one. Size 0 raises. A negative size gives no chunks. |
| Arguments.ChunkifyFiveHundredSeven | mediacloud/test/api_misc_test.py:81-88 | 507 items in chunks of 50 give 11 chunks: ten of 50 and one of 7. |
| SolrDates.ZiTime | mediacloud_legacy/api.py:1079-1080 | The timestamp is 20 characters: four year digits, `-`, two month digits, `-`, two day digits, then `T00:00:00Z`. |
| SolrDates.ZiTimeRoundTrip | mediacloud_legacy/api.py:1079-1080 | The UTC-midnight timestamp of a date parses back to that date. |
| SolrDates.SolrDateRange | mediacloud_legacy/api.py:1063-1076 | The range is 46 characters. It opens with `[` or `{` by start inclusivity, puts the two timestamps around ` TO `, and closes with `]` or `}` by end inclusivity. |
| SolrDates.SolrDateRangeRoundTrip | mediacloud_legacy/api.py:1063-1076 | A range string parses back to its two dates and both flags. |
| SolrDates.FieldClauseRoundTrip | mediacloud_legacy/api.py:503 | `field:range` parses back to the field and the range, whatever the field holds. |
| Transport.Headers | mediacloud_legacy/api.py:436-474 | Every request accepts JSON. A Content-Type is sent exactly when the body is JSON. |
| Transport.UrlLength | mediacloud_legacy/api.py:408-419 | The measure is at least the URL's length, and exactly that with no parameters. |
| Transport.UrlLengthCountsEach | mediacloud_legacy/api.py:411-417 | Every parameter's key and the length of its value's `str` are part of the measure. |
| Transport.UrlLengthAppend | mediacloud_legacy/api.py:408-419 | Adding a parameter grows the measured length by its key's length plus the length of its value's `str`. |
| Transport.GetOrFormPost | mediacloud_legacy/api.py:432-441 | A POST is sent exactly when the measured length exceeds 4000. Either way the server receives exactly the given parameters at the same URL. |
| Transport.InjectAuth | mediacloud_legacy/api.py:428-431 | `key` becomes the token unless the caller gave one or the verb carries the key in the URL. `all_fields` becomes 1 when the flag is on. No key is lost. Assigning into a list raises TypeError. |
| Transport.CheckErrorEnvelope | mediacloud_legacy/api.py:403-406 | A dict holding `error` raises MCException with that message and status 200. A list or string that passes `'error' in` raises TypeError, and so do null, booleans and numbers. Any other body is returned as it is. |
| Transport.Interpret | mediacloud_legacy/api.py:484-489 | A non-200 status raises MCException with that status and the formatted message. A body that does not parse raises ValueError. A result is never an error envelope. |
| Transport.ErrorEnvelopeRaises | mediacloud_legacy/api.py:403-405 | `{"error": m}` with status 200 becomes `MCException(m, 200)`. |
| Transport.UrlWithKey | mediacloud_legacy/api.py:465 | `url?key=token`, or TypeError when the token is None. |
| Tags.NewTagSpec | mediacloud/tags.py:43-47 | The fields are as given, and the action defaults to `add`. |
| Tags.IsSpecifiedByName | mediacloud/tags.py:49-50 | A tag is named by name when neither the tag name nor the tag-set name is None. |
| Tags.IsSpecifiedById | mediacloud/tags.py:52-53 | A tag is named by id when its id is not None. |
| Tags.NewTagSpecSpecifiedBy | mediacloud/tags.py:43-53 | A spec built by the constructor is named by id exactly when an id was passed, and by name exactly when both names were. |
| Tags.BaseParams | mediacloud/tags.py:55-64 | Always holds `action`. Holds `tags_id` exactly when an id is given. Holds `tag` and `tag_set` exactly when there is no id and both names are given. With neither, it is `{action}` alone. Keys are unique. |
| Tags.TagParams | mediacloud/tags.py:76-79 | The story or media id comes first, followed by the base parameters in order. The id is never overwritten. Keys are unique. |
| Tags.IdTakesPrecedence | mediacloud/tags.py:59-63 | A tag given both by id and by name is sent by id alone. |
| Storage.StoryExists | mediacloud/storage.py:91-93 | A story exists when the store holds a record under its id. |
| Storage.StoryExistsAfterSave | mediacloud/storage.py:18-46 | After a successful `addStory` or `updateStory`, `storyExists` answers True for the story's id. |
| Storage.StoryId | mediacloud/storage.py:20 | `story['stories_id']`, or KeyError. |
| Storage.RecordToSave | mediacloud/storage.py:38-42 | The copy is updated with the extras, tagged with the id, and given `story_sentences_count` when the story has sentences. Every other key follows the overlay of extras over story. No key of the story is lost. |
| Storage.AddStory | mediacloud/storage.py:32-46 | A known id answers False and leaves the store unchanged. A new one stores the record under its `stories_id` and answers True. A story with no id raises KeyError. |
| Storage.UpdateStory | mediacloud/storage.py:18-28 | A new story goes through `addStory`. A known one is replaced by the merged record, whose `stories_id` is reset to the story's own id. |
| Storage.AddStoryTwice | mediacloud_legacy/test/storage_test.py:48-54 | A second `addStory` of the same story answers False and leaves the store as the first call left it. |
| Storage.UpdateStoryIdempotent | mediacloud/storage.py:18-28 | Updating a known story again with the same arguments changes nothing. |
| Storage.UpdateKnownStoryKeeps | mediacloud_legacy/test/storage_test.py:26-32 | Updating a known story with extra attributes stores a record that keeps the story's id and sentence count and carries every extra attribute. |
| Media.CleanFields | mediacloud_legacy/api.py:995-999 | Raises ValueError naming the first field not allowed. Otherwise keeps every field in order, coercing the boolean fields. |
| Media.ByKeySendsFalseAsOne | mediacloud_legacy/api.py:998-999 | As written, `is_monitored=False` is sent as 1. |
| Media.ByValueKeepsTruth | mediacloud_legacy/api.py:998-999 | Coercing by value sends 1 exactly for a truthy value, so False is sent as 0. |
| Media.UrlMissing | mediacloud/api.py:929 | The legacy test is `None or not url`. The current test is `None or len(url) == 0`, which raises TypeError when there is no length. |
| Media.CleanCreateItem | mediacloud_legacy/api.py:980-987 | Each item is cleaned. A missing url raises KeyError, and an empty one raises ValueError. |
| Media.CleanCreateItems | mediacloud_legacy/api.py:980-987 | The list succeeds exactly when every item does, pointwise. Otherwise it fails with the error of the first item that fails. |
| Media.CleanUpdate | mediacloud_legacy/api.py:995-1002 | Succeeds exactly when the fields clean and any url given is present and non-empty. An empty url given raises ValueError, and a url without a length raises its TypeError. `media_id` is set, every other non-boolean field is kept, and each boolean field given holds its coerced value. |
| Metadata.TagSetTest | mediacloud_legacy/api.py:204 | `t['tag_sets_id'] == id` succeeds exactly on a dict with that key and answers set membership. |
| Metadata.FilterTagSet | mediacloud_legacy/api.py:201-204 | Succeeds exactly when every tag has a `tag_sets_id` to compare, and fails with the first failing tag's error otherwise. The result keeps exactly the set's tags. |
| Metadata.FilterTagSetFirst | mediacloud_legacy/api.py:196-204 | The filtered list is empty exactly when no tag is in the set. Otherwise its head is the earliest tag in the set. |
| Metadata.TagsOn | mediacloud_legacy/api.py:201-204 | A missing tag list raises KeyError. A list is filtered. |
| Metadata.FirstTagOn | mediacloud_legacy/api.py:196-199 | Succeeds exactly when the tag lookup does. |
| Metadata.FirstTagOnIsEarliest | mediacloud/api.py:210-217 | The first tag is None exactly when no tag is in the set. Otherwise it is the earliest tag of the set. |
| Metadata.MetadataOf | mediacloud_legacy/api.py:186-192 | One entry per named tag set, in order, each the first tag of that set. Succeeds exactly when every set's tags can be read; otherwise the error is the one raised for the first set whose tags cannot be read. |
| Metadata.AddMetadataTags | mediacloud_legacy/api.py:184-194 | Same items in the same order. Each gains `metadata` and keeps every other field. Succeeds exactly when every item is a dict whose tags can be read. Otherwise the error is the first item's that cannot be tagged, and a list that cannot be iterated raises TypeError. |
| Metadata.AddMetadata | mediacloud/api.py:300-308 | One item gains its summary under `metadata` and nothing else changes. A summary that cannot be built raises its own error, and an item that is not a dict raises TypeError. |
| Metadata.AddMetadataEach | mediacloud/api.py:300-308 | The loop applies the one-item step to each item in turn. It succeeds exactly when every item is taggable, and otherwise raises the error of the first item that is not. |
| LegacyApi.NewClient | mediacloud_legacy/api.py:36-42 | A missing or empty token raises MCException with status 0. Otherwise the token is kept and `all_fields` is its truthiness. |
| LegacyApi.Query | mediacloud_legacy/api.py:421-479 | The request for each verb: GET with fallback to POST; PUT_JSON with the key alone on the query string when there is no data; PUT; POST_JSON and POST with the key in the URL. Unknown verbs raise ValueError. |
| LegacyApi.QueryForJson | mediacloud_legacy/api.py:397-406 | The interpretation of the server's answer to that request, or the error raised first. |
| LegacyApi.KeyAlwaysSent | mediacloud_legacy/api.py:428-476 | Every request sent carries a key: in the URL for POST_JSON, in the parameters otherwise. A key the caller gave reaches the server untouched by GET, PUT and POST. |
| LegacyApi.GetFallbackTransparent | mediacloud_legacy/api.py:433-438 | Against a server that treats a form POST like the same GET, the fallback changes nothing. |
| LegacyApi.GetThreshold | mediacloud_legacy/api.py:435 | Exactly 4000 measured characters stays a GET; one more becomes a POST. |
| LegacyApi.PublishDateQuery | mediacloud_legacy/api.py:492-503 | Defaults: start inclusive, end exclusive, field `publish_day`. Only the four date fields are accepted; any other raises MCException. The clause parses back to the field and range. |
| LegacyApi.DatesAsQueryClause | mediacloud_legacy/api.py:505-511 | Defaults: both ends inclusive, field `publish_day`. Same check, and a clause that parses back. |
| LegacyApi.DateQueryDefaults | mediacloud_legacy/api.py:494-507 | Called with the two dates alone, `publish_date_query` ends in `}` and `dates_as_query_clause` in `]`, both on `publish_day:[`. |
| LegacyApi.PublishDateDefaultsJune2014 | mediacloud/test/api_misc_test.py:26-38 | The clause for 2 to 3 June 2014 with the flags defaulted, on `publish_day` by default or on a named field. |
| LegacyApi.PublishDateQueryJune2014 | mediacloud/test/api_misc_test.py:40-58 | The clause for 2 to 3 June 2014, for each field and each pair of flags. |
| LegacyApi.ValidateSplitPeriod | mediacloud_legacy/api.py:1096-1099 | None or day/week/month/year is handed back. Anything else raises with the value quoted. |
| LegacyApi.ValidateTopicSort | mediacloud_legacy/api.py:1107-1110 | None or one of the eight legacy topic sorts. |
| LegacyApi.ValidateFeedTypeAsWritten | mediacloud_legacy/api.py:1134-1136 | Accepts exactly the three feed types. Raises the message with no types filled in. |
| LegacyApi.ValidateFeedType | mediacloud_legacy/api.py:1134-1136 | Accepts exactly the three feed types. Raises the message listing them. |
| LegacyApi.FeedTypeMessageNamesNoType | mediacloud_legacy/api.py:1136 | The message as written names none of the valid types. |
| LegacyApi.FeedTypeMessageNamesEveryType | mediacloud_legacy/api.py:1136 | The intended message names every valid type. |
| LegacyApi.StoryListParams | mediacloud_legacy/api.py:262-277 | Random order with a paging position other than 0 or None raises. Otherwise the eight parameters are sent: q, fq, last_processed_stories_id, rows, sort and feeds_id as given, and `wc` and `show_feeds` as `1 if x is True else 0`. |
| LegacyApi.TopicCreateParams | mediacloud_legacy/api.py:622-637 | A disallowed keyword raises ValueError. Otherwise the call fails exactly when both media selectors are falsy. On success name, solr_seed_query, description, start_date, end_date, media_ids and media_tags_ids are sent as given, every keyword argument is sent with its own value, and no other key is set. |
| LegacyApi.MediaCreateRequest | mediacloud_legacy/api.py:975-988 | The boolean fields are converted under the given rule: `Media.ByKey` is the code as written, `Media.ByValue` the corrected one. The cleaned list is POSTed as JSON to `media/create?key=token`. Cleaning errors come first. A list with `all_fields` on raises. |
| LegacyApi.MediaUpdateRequest | mediacloud_legacy/api.py:990-1003 | The boolean fields are converted under the given rule, as for create. The cleaned properties plus the key are PUT as JSON to `media/update`, with the key alone on the query string. |
| LegacyApi.MediaUpdateCarriesId | mediacloud_legacy/api.py:1000-1003 | Under either rule, the body names `media_id` and keeps every non-boolean property the caller gave. |
| LegacyApi.MediaUpdateSendsFlag | mediacloud_legacy/api.py:995-999 | A given `is_monitored` is sent as 1 whatever its value as written, and as its truthiness under the corrected rule. |
| LegacyApi.PutJsonWithoutData | mediacloud_legacy/api.py:446-448 | A PUT_JSON without data sends `{key}` as the query string and the prepared parameters as the body, keeping every caller value. |
| CurrentApi.Query | mediacloud/api.py:455-501 | As in the legacy client, except that POST carries JSON with the key in the URL, and POST_JSON is unknown. |
| CurrentApi.InterpretLogged | mediacloud/api.py:438-441 | A 200 envelope whose `error` is a string raises MCException with that message and status 200. One whose `error` is anything else raises TypeError from the log line's string concatenation. Every other response is judged as `Transport.Interpret` judges it. |
| CurrentApi.NumericErrorRaisesTypeError | mediacloud/api.py:438-441 | `{"error": n}` with status 200 raises MCException in the legacy client but TypeError in the current one. |
| CurrentApi.QueryForJson | mediacloud/api.py:430-441 | The current interpretation (`InterpretLogged`) of the server's answer, or the error raised first. A result is never an error envelope. |
| CurrentApi.KeyAlwaysSent | mediacloud/api.py:460-499 | Every request sent carries a key: in the URL for POST, in the parameters otherwise. |
| CurrentApi.PostJsonUnsupported | mediacloud/api.py:500-501 | POST_JSON raises the unsupported-method ValueError. |
| CurrentApi.PublishDateQuery | mediacloud/api.py:512-513 | Defaults: start inclusive, end exclusive. The clause on `publish_date` parses back to its range. |
| CurrentApi.PublishDateDefaultJune2014 | mediacloud/test/apitest.py:82-86 | The `publish_date` clause for 2 to 3 June 2014 with the flags defaulted. |
| CurrentApi.PublishDateQueryJune2014 | mediacloud/test/apitest.py:88-98 | The `publish_date` clause for 2 to 3 June 2014 under each pair of flags. |
| CurrentApi.ValidateTopicSort | mediacloud/api.py:1008-1010 | None or inlink/bitly/facebook/twitter/"". |
| CurrentApi.ValidateFeedType | mediacloud/api.py:1034-1036 | `syndicated` or `web_page`. |
| CurrentApi.ValidateFeedStatus | mediacloud/api.py:1039-1041 | active/inactive/skipped. |
| CurrentApi.CheckDate | mediacloud/api.py:1030 | A non-string raises TypeError, and an unparsable string raises ValueError. |
| CurrentApi.ValidateDateParams | mediacloud/api.py:1027-1031 | Succeeds exactly when every listed parameter present parses, and returns the parameters unchanged. Otherwise it fails with the error of the first listed parameter that does not parse. |
| CurrentApi.SentenceCountParams | mediacloud/api.py:345-356 | A `split` other than True/False raises. A true split checks and sends both dates; when a date is refused the error is the start date's if it is refused, else the end date's. Otherwise exactly q, fq, split and split_daily are sent. q and fq go as given, and split_daily as `1 if split_daily is True else 0`. |
| CurrentApi.TopicSentenceCountAsWritten | mediacloud/api.py:561-569 | As written, the date check is never reached: the result is that of the flag step alone. |
| CurrentApi.TopicSentenceCountFlags | mediacloud/api.py:562-566 | Succeeds exactly when the keyword and flag checks pass. A converted `split` is never True. |
| CurrentApi.TopicSentenceCountFlagsKeepDates | mediacloud/api.py:565 | The dates are copied through as given. |
| CurrentApi.TopicSentenceCountFlagsSplitOne | mediacloud/api.py:566 | A `split` of True has become 1. |
| CurrentApi.FlagsNeverTrue | mediacloud/api.py:566-567 | After conversion `split` is 1 or 0, so `is True` cannot hold. |
| CurrentApi.TopicSentenceCountSkipsDates | mediacloud/api.py:566-568 | An unparsable start date with `split=True` is accepted as written. |
| CurrentApi.TopicSentenceCount | mediacloud/api.py:561-569 | With the intended check, a requested split succeeds exactly when every given date parses. |
| CurrentApi.TopicSentenceCountChecksDates | mediacloud/api.py:567-568 | The corrected reading refuses that same input. |
| CurrentApi.TopicSentenceCountRefusesSplitDaily | mediacloud/api.py:563-566 | `split_daily` is converted as a flag, but passing it is refused. |
| CurrentApi.TopicCreateParams | mediacloud/api.py:603-616 | A disallowed keyword raises ValueError. The `len` of each selector decides the rest: no length raises TypeError, and two empty selectors raise ValueError. On success name, solr_seed_query, description, start_date, end_date, media_ids and media_tags_ids are sent as given, every keyword argument is sent with its own value, and no other key is set. |
| CurrentApi.MediaCreateRequest | mediacloud/api.py:919-931 | The boolean fields are converted under the given rule: `Media.ByKey` is the code as written, `Media.ByValue` the corrected one. The cleaned list is POSTed as JSON with the key in the URL. |
| CurrentApi.MediaUpdateRequest | mediacloud/api.py:933-945 | The boolean fields are converted under the given rule, as for create. The cleaned properties are PUT as JSON with the key alone on the query string. |
| CurrentApi.MediaUpdateCarriesId | mediacloud/api.py:941-945 | Under either rule, the body names `media_id` and keeps every non-boolean property the caller gave. |
| CurrentApi.MediaUpdateSendsFlag | mediacloud/api.py:937-941 | A given `is_monitored` is sent as 1 whatever its value as written, and as its truthiness under the corrected rule. |
| CurrentApi.PutJsonWithoutData | mediacloud/api.py:473-486 | A PUT_JSON without data sends `{key}` as the query string and the prepared parameters as the body. |

## Left out

- The HTTP library, logging, timing and profiling: the request is handed to a `server` parameter instead.
- The fallback for a `UnicodeEncodeError` in `_url_length`: characters are counted once, by `str`.
- The `requests` library's dropping of None-valued parameters: the model sends the parameters as given.
- `datetime.strptime`: it is the `DateError` parameter, and only its verdict is modelled.
- Floating-point values: the JSON type has integers only.
- The roughly one hundred endpoint wrappers that only forward to `_queryForJson`: only the ones with their own argument checks are modelled.
- The `deprecated` decorator on `publish_date_query`: it only logs.
- `_queryForFile`, the map downloads and the other binary responses: these are not part of this model.
- `MongoStoryDatabase` and `getStory`, `storyCount`, `getMaxStoryId`: a map stands in for the Mongo collection.
- The current `_chunkify` (`mediacloud/api.py:988-992`) calls `xrange`, which Python 3 does not have; it is modelled as the legacy version, which uses `range`.
- The legacy `_validate_date_params` (`mediacloud_legacy/api.py:1127-1131`): it is the same as the current one, which is modelled.
- The current `storyList`: it has no argument check.
- The admin `storyList` of the legacy client (`mediacloud_legacy/api.py:825-856`): it makes the same random-order paging check as the public one, which is modelled, and only its parameter list differs.
- `setAuthToken` and `setAllFields`: `Client` is an immutable value, so each call builds a new one.
- The deep copy in `addStory` and `updateStory`: values are immutable, so the caller's story is never changed anyway.
- The in-place mutation of the caller's dicts by `_query`, `mediaCreate` and `mediaUpdate`: results are returned instead of written back.
- PyValues.Repr: quotes, backslashes and control characters inside strings are not escaped, so `UrlLength` undercounts list or dict values holding such strings.
- Python's `==` between containers that differ only by a bool/int swap inside: `PyEq` treats them as different, and no allow-list in the client holds containers.
- Metadata.FirstTagOn: its contract states only when it succeeds; what it finds is stated by Metadata.FirstTagOnIsEarliest.

## Findings

| source | as written | input that shows it | evidently intended | confidence | as-written member | corrected member |
|---|---|---|---|---|---|---|
| mediacloud_legacy/api.py:998-999 | `new_props[k] = 1 if k else 0` tests the field's name, which is never empty. The same line appears at 984-985 and at `mediacloud/api.py:927-928` and `941`. | `mediaUpdate(id, {'url': u, 'is_monitored': False})` sends `is_monitored=1` | `1 if new_props[k] else 0`; the request members take the rule as a parameter, and `MediaUpdateSendsFlag` in each client states both | high; not executed | Media.ByKeySendsFalseAsOne | Media.ByValueKeepsTruth |
| mediacloud/api.py:566-568 | `_validate_bool_params` turns `split` into 1 or 0, so the test `params['split'] is True` is never true and the dates are never checked | `topicSentenceCount(t, split=True, split_start_date='not-a-date')` is sent unchecked | check the dates when `split` was requested as True | high; not executed | CurrentApi.TopicSentenceCountSkipsDates | CurrentApi.TopicSentenceCountChecksDates |
| mediacloud_legacy/api.py:1136 | `'feed_type must be on of []'.format(...)` has no placeholder, so the list of types never appears | `_validate_feed_type('rss')` raises `feed_type must be on of []` | `'feed_type must be on of [{}]'` | high; not executed | LegacyApi.FeedTypeMessageNamesNoType | LegacyApi.FeedTypeMessageNamesEveryType |

=== FILE: current_api.dfy ===
/** The current client (`mediacloud/api.py`): its `_query` dispatch with the
    verbs GET, PUT_JSON, PUT and POST (POST now carries JSON), `_queryForJson`,
    `publish_date_query`, its allow-list validators and the argument checks of
    `sentenceCount`, `topicSentenceCount`, `topicCreate`, `mediaCreate` and
    `mediaUpdate`.  String comparisons the source writes with `is` are read as
    `==`. */
module CurrentApi {
  import opened Wrappers
  import opened Dicts
  import opened PyValues
  import opened SolrDates
  import opened Arguments
  import opened Transport
  import Media

  const V2ApiUrl: string := "https://api.mediacloud.org/api/v2/"

  /** The verb that carries the key in the URL instead of the parameters. */
  const UrlKeyVerb: string := "POST"
  const Verbs: set<string> := {"GET", "PUT_JSON", "PUT", "POST"}

  /** The parameters after key and `all_fields` injection, for a dict. */
  function Prepared(client: Client, d: Dict<Json>, verb: string): Dict<Json> {
    InjectAuth(client, DictParams(d), verb, UrlKeyVerb).value.d
  }

  /** `_query(url, params, http_method, json_data)` up to the HTTP call.  Unlike
      the legacy client, POST sends the parameters as JSON and POST_JSON is no
      longer a verb. */
  function Query(client: Client, url: string, params: Params, verb: string, jsonData: Json): (r: Py<WireRequest>)
    ensures InjectAuth(client, params, verb, UrlKeyVerb).Failure? ==>
      r == Failure(InjectAuth(client, params, verb, UrlKeyVerb).error)
    ensures params.DictParams? && verb !in Verbs ==> r == Failure(ValueError(UnsupportedMethodMessage(verb)))
    ensures params.DictParams? && verb == "GET" ==>
      r.Success? && r.value.url == url && SentParams(r.value) == Prepared(client, params.d, verb)
      && (r.value.httpMethod == POST <==> UrlLength(url, Prepared(client, params.d, verb)) > MaxHttpGetChars)
    ensures params.DictParams? && verb == "PUT" ==>
      r == Success(WireRequest(PUT, url, Prepared(client, params.d, verb), NoBody))
    ensures verb == "PUT_JSON" && jsonData == JNull && InjectAuth(client, params, verb, UrlKeyVerb).Success? ==>
      r == Success(WireRequest(PUT, url, [("key", OptStr(client.authToken))],
                               JsonBody(ParamsJson(InjectAuth(client, params, verb, UrlKeyVerb).value))))
    ensures params.DictParams? && verb == "PUT_JSON" && jsonData != JNull ==>
      r == Success(WireRequest(PUT, url, Prepared(client, params.d, verb), JsonBody(jsonData)))
    ensures verb == "POST" && InjectAuth(client, params, verb, UrlKeyVerb).Success? ==>
      (r.Success? <==> client.authToken.Some?)
      && (r.Success? ==> r.value == WireRequest(POST, UrlWithKey(client, url).value, [],
                                                JsonBody(ParamsJson(InjectAuth(client, params, verb, UrlKeyVerb).value))))
  {
    var prepared :- InjectAuth(client, params, verb, UrlKeyVerb);
    if verb == "GET" then
      match prepared
      case DictParams(d) => Success(GetOrFormPost(url, d))
      case ListParams(_) => Failure(AttributeError)
    else if verb == "PUT_JSON" then
      if jsonData == JNull then
        Success(WireRequest(PUT, url, [("key", OptStr(client.authToken))], JsonBody(ParamsJson(prepared))))
      else
        match prepared
        case DictParams(d) => Success(WireRequest(PUT, url, d, JsonBody(jsonData)))
        case ListParams(_) => Failure(TypeError)
    else if verb == "PUT" then
      match prepared
      case DictParams(d) => Success(WireRequest(PUT, url, d, NoBody))
      case ListParams(_) => Failure(TypeError)
    else if verb == "POST" then
      var withKey :- UrlWithKey(client, url);
      Success(WireRequest(POST, withKey, [], JsonBody(ParamsJson(prepared))))
    else Failure(ValueError(UnsupportedMethodMessage(verb)))
  }

  /** The response step of the current `_queryForJson`.  Before it raises on an
      error envelope it logs the message by string concatenation, which raises
      TypeError when the envelope's `error` value is not a string; every other
      response is judged as `Interpret` judges it. */
  function InterpretLogged(resp: Response): (r: Py<Json>)
    ensures resp.status == HttpOk && resp.json.Some? && resp.json.value.JObj?
            && HasKey(resp.json.value.fields, "error") && Get(resp.json.value.fields, "error").value.JStr? ==>
      r == Failure(MCException(Get(resp.json.value.fields, "error").value, HttpOk))
    ensures resp.status == HttpOk && resp.json.Some? && resp.json.value.JObj?
            && HasKey(resp.json.value.fields, "error") && !Get(resp.json.value.fields, "error").value.JStr? ==>
      r == Failure(TypeError)
    ensures !(resp.status == HttpOk && resp.json.Some? && resp.json.value.JObj?
              && HasKey(resp.json.value.fields, "error")) ==>
      r == Interpret(resp)
    ensures r.Success? <==> Interpret(resp).Success?
    ensures r.Failure? && r.error.MCException? && r.error.status == HttpOk ==> r.error.message.JStr?
  {
    if resp.status != HttpOk then Interpret(resp)
    else
      match resp.json
      case Some(JObj(fields)) =>
        if HasKey(fields, "error") && !Get(fields, "error").value.JStr? then Failure(TypeError) else Interpret(resp)
      case _ => Interpret(resp)
  }

  /** An envelope whose `error` is a number raises an MCException in the
      legacy client but TypeError in the current one. */
  lemma NumericErrorRaisesTypeError(n: int, reason: string, text: string)
    ensures Interpret(Response(HttpOk, reason, text, Some(JObj([("error", JInt(n))]))))
         == Failure(MCException(JInt(n), HttpOk))
    ensures InterpretLogged(Response(HttpOk, reason, text, Some(JObj([("error", JInt(n))])))) == Failure(TypeError)
  {
    assert HasKey([("error", JInt(n))], "error");
  }

  /** `_queryForJson`: send the request through `server` and interpret the
      response. */
  function QueryForJson(client: Client, url: string, params: Params, verb: string, jsonData: Json,
                        server: WireRequest -> Response): (r: Py<Json>)
    ensures Query(client, url, params, verb, jsonData).Failure? ==>
      r == Failure(Query(client, url, params, verb, jsonData).error)
    ensures Query(client, url, params, verb, jsonData).Success? ==>
      r == InterpretLogged(server(Query(client, url, params, verb, jsonData).value))
    ensures r.Success? ==> !ErrorEnvelope(r.value)
  {
    var request :- Query(client, url, params, verb, jsonData);
    InterpretLogged(server(request))
  }

  /** Every dict-parameter request that is sent carries a key: in the parameters
      for every verb but POST, in the URL for POST.  A key the caller supplied
      is passed on untouched by GET and PUT. */
  lemma KeyAlwaysSent(client: Client, url: string, d: Dict<Json>, verb: string, jsonData: Json)
    requires Query(client, url, DictParams(d), verb, jsonData).Success?
    ensures verb != UrlKeyVerb ==> HasKey(SentParams(Query(client, url, DictParams(d), verb, jsonData).value), "key")
    ensures verb == UrlKeyVerb ==>
      client.authToken.Some? && Query(client, url, DictParams(d), verb, jsonData).value.url == url + "?key=" + client.authToken.value
    ensures HasKey(d, "key") && verb in {"GET", "PUT"} ==>
      Get(SentParams(Query(client, url, DictParams(d), verb, jsonData).value), "key") == Get(d, "key")
  {
    var p := Prepared(client, d, verb);
    var request := Query(client, url, DictParams(d), verb, jsonData).value;
    if verb == "PUT_JSON" && jsonData == JNull {
      GetOfOne("key", OptStr(client.authToken), "key");
      assert SentParams(request) == [("key", OptStr(client.authToken))];
    } else if verb == "PUT_JSON" || verb == "PUT" {
      assert SentParams(request) == p + [] == p;
    }
  }

  /** The verb the legacy client used for JSON posts is refused outright. */
  lemma PostJsonUnsupported(client: Client, url: string, d: Dict<Json>, jsonData: Json)
    ensures Query(client, url, DictParams(d), "POST_JSON", jsonData)
         == Failure(ValueError(UnsupportedMethodMessage("POST_JSON")))
  {
    assert "POST_JSON" !in Verbs;
  }

  /** `publish_date_query`: the clause on `publish_date`, start-inclusive and
      end-exclusive unless told otherwise. */
  function PublishDateQuery(start: CalendarDate, end: CalendarDate, startInclusive: bool := true,
                            endInclusive: bool := false): (r: string)
    ensures ParseFieldClause(r) == Some(("publish_date", DateRange(start, end, startInclusive, endInclusive)))
  {
    FieldClauseRoundTrip("publish_date", DateRange(start, end, startInclusive, endInclusive));
    FieldClause("publish_date", DateRange(start, end, startInclusive, endInclusive))
  }

  /** The clause for 2 to 3 June 2014 under each pair of flags, the defaults
      being start-inclusive and end-exclusive. */
  lemma PublishDateQueryJune2014(start: CalendarDate, end: CalendarDate, startInclusive: bool, endInclusive: bool)
    requires start == Date(2014, 6, 2) && end == Date(2014, 6, 3)
    ensures PublishDateQuery(start, end, startInclusive, endInclusive)
         == "publish_date" + ":" + [if startInclusive then '[' else '{'] + "2014-06-02T00:00:00Z" + " TO "
            + "2014-06-03T00:00:00Z" + [if endInclusive then ']' else '}']
  {
    FieldClauseJune2014("publish_date", start, end, startInclusive, endInclusive);
    assert PublishDateQuery(start, end, startInclusive, endInclusive)
        == FieldClause("publish_date", DateRange(start, end, startInclusive, endInclusive));
  }

  /** The clause for 2 to 3 June 2014 when the flags are left to their
      defaults. */
  lemma PublishDateDefaultJune2014(start: CalendarDate, end: CalendarDate)
    requires start == Date(2014, 6, 2) && end == Date(2014, 6, 3)
    ensures PublishDateQuery(start, end)
         == "publish_date" + ":" + "[" + "2014-06-02T00:00:00Z" + " TO " + "2014-06-03T00:00:00Z" + "}"
  {
    PublishDateQueryJune2014(start, end, true, false);
  }

  // ----- allow-list validators -----

  const TopicSortOrders: seq<string> := ["inlink", "bitly", "facebook", "twitter", ""]

  /** `_validate_topic_sort_param`. */
  function ValidateTopicSort(order: Json): (r: Py<Json>)
    ensures r.Success? <==> order == JNull || (order.JStr? && order.s in TopicSortOrders)
    ensures r.Failure? ==> r.error == ValueError("Invalid sort specified: " + Str(order))
  {
    ValidateStringChoice(order, true, TopicSortOrders, "Invalid sort specified: " + Str(order))
  }

  const FeedTypes: seq<string> := ["syndicated", "web_page"]

  /** `_validate_feed_type`. */
  function ValidateFeedType(feedType: Json): (r: Py<Json>)
    ensures r.Success? <==> feedType.JStr? && feedType.s in FeedTypes
    ensures r.Failure? ==> r.error == ValueError("feed_type must be syndicated or web_page")
  {
    ValidateStringChoice(feedType, false, FeedTypes, "feed_type must be syndicated or web_page")
  }

  const FeedStatuses: seq<string> := ["active", "inactive", "skipped"]

  /** `_validate_feed_status`. */
  function ValidateFeedStatus(feedStatus: Json): (r: Py<Json>)
    ensures r.Success? <==> feedStatus.JStr? && feedStatus.s in FeedStatuses
    ensures r.Failure? ==> r.error == ValueError("feed_status must be active, inactive, or skipped")
  {
    ValidateStringChoice(feedStatus, false, FeedStatuses, "feed_status must be active, inactive, or skipped")
  }

  // ----- dates given as strings -----

  /** `datetime.strptime(s, '%Y-%m-%d')` is a parameter: it maps a string to
      None when it parses and to the text of the ValueError it raises
      otherwise. */
  type DateError = string -> Option<string>

  predicate DateAccepted(v: Json, dateError: DateError) {
    v.JStr? && dateError(v.s).None?
  }

  /** One `strptime` call: a non-string raises TypeError, a string that does not
      parse raises ValueError. */
  function CheckDate(v: Json, dateError: DateError): (r: Py<Json>)
    ensures r.Success? <==> DateAccepted(v, dateError)
    ensures r.Success? ==> r.value == v
    ensures !v.JStr? ==> r == Failure(TypeError)
    ensures v.JStr? && dateError(v.s).Some? ==> r == Failure(ValueError(dateError(v.s).value))
  {
    match v
    case JStr(s) =>
      (match dateError(s)
       case None => Success(v)
       case Some(text) => Failure(ValueError(text)))
    case _ => Failure(TypeError)
  }

  /** `_validate_date_params(params, *names)`: every listed name present must
      hold a date; the parameters are handed back unchanged. */
  function ValidateDateParams(params: Dict<Json>, names: seq<string>, dateError: DateError): (r: Py<Dict<Json>>)
    ensures r.Success? <==> forall i :: 0 <= i < |names| && HasKey(params, names[i]) ==>
                                         DateAccepted(Get(params, names[i]).value, dateError)
    ensures r.Success? ==> r.value == params
    ensures r.Failure? ==> exists i :: 0 <= i < |names| && HasKey(params, names[i])
                                       && CheckDate(Get(params, names[i]).value, dateError) == Failure(r.error)
                                       && forall j :: 0 <= j < i && HasKey(params, names[j]) ==>
                                            CheckDate(Get(params, names[j]).value, dateError).Success?
    decreases |names|
  {
    if names == [] then Success(params)
    else
      assert forall i :: 0 < i < |names| ==> names[i] == names[1..][i - 1];
      match Get(params, names[0])
      case None => ValidateDateParams(params, names[1..], dateError)
      case Some(v) =>
        match CheckDate(v, dateError)
        case Failure(e) => Failure(e)
        case Success(_) => ValidateDateParams(params, names[1..], dateError)
  }

  // ----- endpoint argument checks -----

  const SplitNotBooleanMessage: string := "split much be a boolean True or False"

  /** `sentenceCount`'s parameters.  `split` must be `==` to True or False; it
      and `split_daily` are sent as `1 if x is True else 0`; only a split that
      `is True` makes the two dates checked and sent. */
  function SentenceCountParams(solrQuery: Json, solrFilter: Json, split: Json, splitStartDate: Json,
                               splitEndDate: Json, splitDaily: Json, dateError: DateError): (r: Py<Dict<Json>>)
    ensures !BoolLike(split) ==> r == Failure(ValueError(SplitNotBooleanMessage))
    ensures BoolLike(split) && split != JBool(true) ==>
      r.Success? && Keys(r.value) == ["q", "fq", "split", "split_daily"] && Get(r.value, "split") == Some(JInt(0))
    ensures split == JBool(true) ==>
      (r.Success? <==> DateAccepted(splitStartDate, dateError) && DateAccepted(splitEndDate, dateError))
    ensures split == JBool(true) && r.Failure? ==>
      r.error == if CheckDate(splitStartDate, dateError).Failure? then CheckDate(splitStartDate, dateError).error
                 else CheckDate(splitEndDate, dateError).error
    ensures split == JBool(true) && r.Success? ==>
      Keys(r.value) == ["q", "fq", "split", "split_daily", "split_start_date", "split_end_date"]
      && Get(r.value, "split") == Some(JInt(1))
      && Get(r.value, "split_start_date") == Some(splitStartDate) && Get(r.value, "split_end_date") == Some(splitEndDate)
    ensures r.Success? ==> Get(r.value, "q") == Some(solrQuery) && Get(r.value, "fq") == Some(solrFilter)
    ensures r.Success? ==> Get(r.value, "split_daily") == Some(BoolWire(splitDaily))
  {
    BoolLikeExactly(split);
    if !BoolLike(split) then Failure(ValueError(SplitNotBooleanMessage))
    else
      var base := [("q", solrQuery), ("fq", solrFilter), ("split", BoolWire(split)), ("split_daily", BoolWire(splitDaily))];
      KeysAt(base);
      if split != JBool(true) then
        assert BoolWire(split) == JInt(0);
        assert Get(base, "split") == Some(JInt(0)) by { GetPast(base, 2, "split"); }
        assert Get(base, "split_daily") == Some(BoolWire(splitDaily)) by { GetPast(base, 3, "split_daily"); }
        Success(base)
      else
        match (CheckDate(splitStartDate, dateError), CheckDate(splitEndDate, dateError))
        case (Failure(e), _) => Failure(e)
        case (_, Failure(e)) => Failure(e)
        case (Success(_), Success(_)) =>
          var d := base + [("split_start_date", splitStartDate), ("split_end_date", splitEndDate)];
          KeysAt(d);
          assert Get(d, "split") == Some(JInt(1)) by { GetPast(d, 2, "split"); }
          assert Get(d, "split_daily") == Some(BoolWire(splitDaily)) by { GetPast(d, 3, "split_daily"); }
          assert Get(d, "split_start_date") == Some(splitStartDate) by { GetPast(d, 4, "split_start_date"); }
          assert Get(d, "split_end_date") == Some(splitEndDate) by { GetPast(d, 5, "split_end_date"); }
          Success(d)
  }

  const TopicSentenceCountOptional: seq<string> := ["q", "fq", "split", "split_start_date", "split_end_date",
                                                   "snapshots_id", "foci_id", "timespans_id"]
  const SplitDates: seq<string> := ["split_start_date", "split_end_date"]

  /** `topicSentenceCount` as written: after `_validate_bool_params` has turned
      `split` into 1 or 0, the test `params['split'] is True` can no longer
      hold, so the dates are never checked. */
  function TopicSentenceCountAsWritten(kwargs: Dict<Json>, dateError: DateError): (r: Py<Dict<Json>>)
    ensures r == TopicSentenceCountFlags(kwargs)
  {
    match TopicSentenceCountFlags(kwargs)
    case Failure(e) => Failure(e)
    case Success(converted) =>
      if Get(converted, "split") == Some(JBool(true)) then ValidateDateParams(converted, SplitDates, dateError)
      else Success(converted)
  }

  /** The steps both readings share: copy the keyword arguments (only the
      listed names are allowed) and convert the two flags. */
  function TopicSentenceCountFlags(kwargs: Dict<Json>): (r: Py<Dict<Json>>)
    ensures r.Success? ==> Get(r.value, "split") != Some(JBool(true))
    ensures r.Success? <==> ValidateParams([], TopicSentenceCountOptional, kwargs).Success?
                            && ValidateBoolParams(ValidateParams([], TopicSentenceCountOptional, kwargs).value,
                                                  ["split", "split_daily"]).Success?
  {
    match ValidateParams([], TopicSentenceCountOptional, kwargs)
    case Failure(e) => Failure(e)
    case Success(params) =>
      match ValidateBoolParams(params, ["split", "split_daily"])
      case Failure(e) => Failure(e)
      case Success(converted) =>
        FlagsNeverTrue(params, converted);
        Success(converted)
  }

  /** With each argument given once, the converted parameters hold the dates as
      given. */
  lemma TopicSentenceCountFlagsKeepDates(kwargs: Dict<Json>)
    requires TopicSentenceCountFlags(kwargs).Success? && UniqueKeys(kwargs)
    ensures forall k :: k in SplitDates ==> Get(TopicSentenceCountFlags(kwargs).value, k) == Get(kwargs, k)
  {
    var params := ValidateParams([], TopicSentenceCountOptional, kwargs).value;
    var converted := TopicSentenceCountFlags(kwargs).value;
    assert converted == ValidateBoolParams(params, ["split", "split_daily"]).value;
    forall k | k in SplitDates ensures Get(converted, k) == Get(kwargs, k) {
      assert k !in ["split", "split_daily"];
      if HasKey(kwargs, k) {
        ValidateParamsTakes([], TopicSentenceCountOptional, kwargs, k);
      }
    }
  }

  /** A `split` given once as True has become 1. */
  lemma TopicSentenceCountFlagsSplitOne(kwargs: Dict<Json>)
    requires TopicSentenceCountFlags(kwargs).Success? && UniqueKeys(kwargs)
    requires Get(kwargs, "split") == Some(JBool(true))
    ensures Get(TopicSentenceCountFlags(kwargs).value, "split") == Some(JInt(1))
  {
    var params := ValidateParams([], TopicSentenceCountOptional, kwargs).value;
    ValidateParamsTakes([], TopicSentenceCountOptional, kwargs, "split");
    assert Distinct(["split", "split_daily"]);
    BoolParamsConvert(params, ["split", "split_daily"], "split");
  }

  /** A converted `split` is 1 or 0, or absent: never the boolean True. */
  lemma FlagsNeverTrue(params: Dict<Json>, converted: Dict<Json>)
    requires ValidateBoolParams(params, ["split", "split_daily"]) == Success(converted)
    ensures Get(converted, "split") != Some(JBool(true))
  {
    HasKeyInKeys(params, "split");
    HasKeyInKeys(converted, "split");
  }

  /** The dates reach the server unchecked: a split of True with a start date
      the parser rejects goes through. */
  lemma TopicSentenceCountSkipsDates(start: string, dateError: DateError)
    requires dateError(start).Some?
    ensures TopicSentenceCountAsWritten([("split", JBool(true)), ("split_start_date", JStr(start))], dateError).Success?
  {
    SplitWithStartDate(start);
  }

  /** The arguments `split=True, split_start_date=start` pass the flag step. */
  lemma SplitWithStartDate(start: string)
    ensures var kwargs := [("split", JBool(true)), ("split_start_date", JStr(start))];
      TopicSentenceCountFlags(kwargs).Success? && UniqueKeys(kwargs)
      && Get(kwargs, "split") == Some(JBool(true)) && Get(kwargs, "split_start_date") == Some(JStr(start))
  {
    SplitArgumentsCopied(start);
    BoolLikeExactly(JBool(true));
  }

  lemma SplitArgumentsCopied(start: string)
    ensures var kwargs := [("split", JBool(true)), ("split_start_date", JStr(start))];
      ValidateParams([], TopicSentenceCountOptional, kwargs).Success? && UniqueKeys(kwargs)
      && Get(kwargs, "split") == Some(JBool(true)) && Get(kwargs, "split_start_date") == Some(JStr(start))
      && Get(ValidateParams([], TopicSentenceCountOptional, kwargs).value, "split") == Some(JBool(true))
      && !HasKey(ValidateParams([], TopicSentenceCountOptional, kwargs).value, "split_daily")
  {
    var kwargs := [("split", JBool(true)), ("split_start_date", JStr(start))];
    GetOfTwo("split", JBool(true), "split_start_date", JStr(start), "split");
    GetOfTwo("split", JBool(true), "split_start_date", JStr(start), "split_daily");
    GetOfTwo("split", JBool(true), "split_start_date", JStr(start), "split_start_date");
    assert UniqueKeys(kwargs) by { GetOfOne("split_start_date", JStr(start), "split"); }
    assert kwargs[0].0 in TopicSentenceCountOptional && kwargs[1].0 in TopicSentenceCountOptional;
    ValidateParamsTakes([], TopicSentenceCountOptional, kwargs, "split");
  }

  /** `topicSentenceCount` with the date check it evidently intends: a split
      that was requested as True (now 1) makes both dates, where given,
      checked. */
  function TopicSentenceCount(kwargs: Dict<Json>, dateError: DateError): (r: Py<Dict<Json>>)
    ensures TopicSentenceCountFlags(kwargs).Failure? ==> r == TopicSentenceCountFlags(kwargs)
    ensures r.Success? ==> r == TopicSentenceCountFlags(kwargs)
    ensures UniqueKeys(kwargs) && Get(kwargs, "split") == Some(JBool(true)) && TopicSentenceCountFlags(kwargs).Success? ==>
      (r.Success? <==> forall k :: k in SplitDates && HasKey(kwargs, k) ==> DateAccepted(Get(kwargs, k).value, dateError))
  {
    match TopicSentenceCountFlags(kwargs)
    case Failure(e) => Failure(e)
    case Success(converted) =>
      assert UniqueKeys(kwargs) ==>
        (forall k :: k in SplitDates ==> Get(converted, k) == Get(kwargs, k))
        && (Get(kwargs, "split") == Some(JBool(true)) ==> Get(converted, "split") == Some(JInt(1))) by {
        if UniqueKeys(kwargs) {
          TopicSentenceCountFlagsKeepDates(kwargs);
          if Get(kwargs, "split") == Some(JBool(true)) { TopicSentenceCountFlagsSplitOne(kwargs); }
        }
      }
      if Get(converted, "split") == Some(JInt(1)) then
        assert forall k :: k in SplitDates <==> exists i :: 0 <= i < |SplitDates| && SplitDates[i] == k;
        ValidateDateParams(converted, SplitDates, dateError)
      else Success(converted)
  }

  /** The corrected reading refuses the start date the as-written one lets
      through. */
  lemma TopicSentenceCountChecksDates(start: string, dateError: DateError)
    requires dateError(start).Some?
    ensures TopicSentenceCount([("split", JBool(true)), ("split_start_date", JStr(start))], dateError).Failure?
  {
    SplitWithStartDate(start);
    assert "split_start_date" in SplitDates && !DateAccepted(JStr(start), dateError);
  }

  /** `split_daily` is converted as a flag but is not among the accepted
      keyword arguments, so passing it is refused. */
  lemma TopicSentenceCountRefusesSplitDaily(dateError: DateError)
    ensures TopicSentenceCount([("split_daily", JBool(true))], dateError)
         == Failure(ValueError(InvalidArgumentMessage("split_daily")))
  {
    assert "split_daily" !in TopicSentenceCountOptional;
  }

  /** `topicCreate`'s parameters: the optional keyword arguments must be
      allowed, and at least one media selector must be non-empty; `len` of a
      selector without a length raises TypeError, and the second selector is
      measured only when the first is empty. */
  function TopicCreateParams(name: Json, solrSeedQuery: Json, description: Json, startDate: Json, endDate: Json,
                             mediaIds: Json, mediaTagsIds: Json, kwargs: Dict<Json>): (r: Py<Dict<Json>>)
    ensures (exists i :: 0 <= i < |kwargs| && kwargs[i].0 !in TopicCreateOptional) ==> r.Failure? && r.error.ValueError?
    ensures (forall i :: 0 <= i < |kwargs| ==> kwargs[i].0 in TopicCreateOptional) ==>
      (r.Success? <==> (Len(mediaIds).Success? && Len(mediaIds).value != 0)
                       || (Len(mediaIds) == Success(0) && Len(mediaTagsIds).Success? && Len(mediaTagsIds).value != 0))
    ensures ((forall i :: 0 <= i < |kwargs| ==> kwargs[i].0 in TopicCreateOptional) && Len(mediaIds) == Success(0)
             && Len(mediaTagsIds) == Success(0)) ==> r == Failure(ValueError(NoMediaMessage))
    ensures (forall i :: 0 <= i < |kwargs| ==> kwargs[i].0 in TopicCreateOptional) && Len(mediaIds).Failure? ==>
      r == Failure(TypeError)
    ensures r.Success? ==> Get(r.value, "media_ids") == Some(mediaIds) && Get(r.value, "media_tags_ids") == Some(mediaTagsIds)
                           && Get(r.value, "name") == Some(name)
    ensures r.Success? ==> Get(r.value, "solr_seed_query") == Some(solrSeedQuery)
                           && Get(r.value, "description") == Some(description)
                           && Get(r.value, "start_date") == Some(startDate) && Get(r.value, "end_date") == Some(endDate)
    ensures r.Success? ==> forall k :: HasKey(kwargs, k) ==> HasKey(r.value, k)
    ensures r.Success? && UniqueKeys(kwargs) ==> forall k :: HasKey(kwargs, k) ==> Get(r.value, k) == Get(kwargs, k)
    ensures r.Success? ==> forall k :: !HasKey(kwargs, k) ==>
      Get(r.value, k) == Get(TopicCreateBase(name, solrSeedQuery, description, startDate, endDate, mediaIds, mediaTagsIds), k)
  {
    var base := TopicCreateBase(name, solrSeedQuery, description, startDate, endDate, mediaIds, mediaTagsIds);
    var params :- ValidateParams(base, TopicCreateOptional, kwargs);
    TopicCreateBaseLookups(base, kwargs, params);
    var idsCount :- Len(mediaIds);
    if idsCount != 0 then Success(params)
    else
      var tagsCount :- Len(mediaTagsIds);
      if tagsCount == 0 then Failure(ValueError(NoMediaMessage)) else Success(params)
  }

  /** `mediaCreate`: clean every item (the boolean fields under the coercion
      `c`: `Media.ByKey` as written, `Media.ByValue` as intended; an empty URL
      measured by `len`), then POST the list as JSON with the key in the URL. */
  function MediaCreateRequest(client: Client, items: seq<Dict<Json>>, c: Media.BoolCoercion): (r: Py<WireRequest>)
    ensures Media.CleanCreateItems(items, Media.ZeroLength, c).Failure? ==>
      r == Failure(Media.CleanCreateItems(items, Media.ZeroLength, c).error)
    ensures Media.CleanCreateItems(items, Media.ZeroLength, c).Success? ==>
      (r.Success? <==> !client.allFields && client.authToken.Some?)
    ensures r.Success? ==>
      r.value.httpMethod == POST && r.value.url == UrlWithKey(client, V2ApiUrl + "media/create").value
      && r.value.body == JsonBody(JArr(ObjectsOf(Media.CleanCreateItems(items, Media.ZeroLength, c).value)))
  {
    var cleaned :- Media.CleanCreateItems(items, Media.ZeroLength, c);
    Query(client, V2ApiUrl + "media/create", ListParams(ObjectsOf(cleaned)), "POST", JNull)
  }

  /** `mediaUpdate`: clean the new properties (booleans under `c`), add
      `media_id`, and PUT them as JSON with the key alone on the query string. */
  function MediaUpdateRequest(client: Client, mediaId: Json, props: Dict<Json>, c: Media.BoolCoercion): (r: Py<WireRequest>)
    ensures Media.CleanUpdate(mediaId, props, Media.ZeroLength, c).Failure? ==>
      r == Failure(Media.CleanUpdate(mediaId, props, Media.ZeroLength, c).error)
    ensures r.Success? <==> Media.CleanUpdate(mediaId, props, Media.ZeroLength, c).Success?
    ensures r.Success? ==>
      r.value == WireRequest(PUT, V2ApiUrl + "media/update", [("key", OptStr(client.authToken))],
                             JsonBody(JObj(Prepared(client, Media.CleanUpdate(mediaId, props, Media.ZeroLength, c).value,
                                                    "PUT_JSON"))))
  {
    match Media.CleanUpdate(mediaId, props, Media.ZeroLength, c)
    case Failure(e) => Failure(e)
    case Success(cleaned) =>
      PutJsonWithoutData(client, V2ApiUrl + "media/update", cleaned);
      Query(client, V2ApiUrl + "media/update", DictParams(cleaned), "PUT_JSON", JNull)
  }

  /** The body of a successful update names the media source being changed and
      carries every non-boolean property the caller gave. */
  lemma MediaUpdateCarriesId(client: Client, mediaId: Json, props: Dict<Json>, c: Media.BoolCoercion, k: string)
    requires Media.CleanUpdate(mediaId, props, Media.ZeroLength, c).Success?
    requires k != "key" && k != "all_fields" && k != "media_id" && k !in Media.UpdateBooleans
    ensures var body := MediaUpdateRequest(client, mediaId, props, c).value.body;
      body.JsonBody? && body.payload.JObj?
      && Get(body.payload.fields, "media_id") == Some(mediaId)
      && Get(body.payload.fields, k) == Get(props, k)
  {
    var cleaned := Media.CleanUpdate(mediaId, props, Media.ZeroLength, c).value;
    assert Get(cleaned, "media_id") == Some(mediaId) && Get(cleaned, k) == Get(props, k);
    InjectAuthKeeps(client, cleaned, "PUT_JSON", UrlKeyVerb, "media_id");
    InjectAuthKeeps(client, cleaned, "PUT_JSON", UrlKeyVerb, k);
  }

  /** The flag `is_monitored`, when given, reaches the server as 1 or 0: as
      written (`Media.ByKey`) always 1, because the key is tested; with the
      value tested (`Media.ByValue`) 1 exactly when the caller's value is
      truthy. */
  lemma MediaUpdateSendsFlag(client: Client, mediaId: Json, props: Dict<Json>, c: Media.BoolCoercion)
    requires Media.CleanUpdate(mediaId, props, Media.ZeroLength, c).Success?
    requires HasKey(props, "is_monitored")
    ensures var body := MediaUpdateRequest(client, mediaId, props, c).value.body;
      body.JsonBody? && body.payload.JObj?
      && (c == Media.ByKey ==> Get(body.payload.fields, "is_monitored") == Some(JInt(1)))
      && (c == Media.ByValue ==>
            Get(body.payload.fields, "is_monitored") == Some(JInt(if Truthy(Get(props, "is_monitored").value) then 1 else 0)))
  {
    var cleaned := Media.CleanUpdate(mediaId, props, Media.ZeroLength, c).value;
    assert "is_monitored" in Media.UpdateBooleans;
    assert Get(cleaned, "is_monitored") == Some(Media.Coerce(c, "is_monitored", Get(props, "is_monitored").value));
    InjectAuthKeeps(client, cleaned, "PUT_JSON", UrlKeyVerb, "is_monitored");
  }

  /** A PUT_JSON without `json_data` sends the key alone on the query string and
      the prepared parameters, every caller value intact, as the body. */
  lemma PutJsonWithoutData(client: Client, url: string, d: Dict<Json>)
    ensures Query(client, url, DictParams(d), "PUT_JSON", JNull)
         == Success(WireRequest(PUT, url, [("key", OptStr(client.authToken))], JsonBody(JObj(Prepared(client, d, "PUT_JSON")))))
    ensures forall k :: k != "key" && k != "all_fields" ==> Get(Prepared(client, d, "PUT_JSON"), k) == Get(d, k)
  {
  }
}

=== FILE: dicts.dfy ===
/** Python dictionaries as insertion-ordered association lists.

    A Python dict keeps its keys in insertion order, and that order is what the
    HTTP layer serialises.  `Set` replaces the value of an existing key in place
    and appends a new key at the end, exactly as `d[k] = v` does; `Get` finds the
    first entry for a key.  Every dict built through `Set` keeps its keys unique
    (`UniqueKeys`), which is the invariant a real Python dict always has. */
module Dicts {
  import opened Wrappers

  type Dict<V> = seq<(string, V)>

  /** `d.get(k)`: the value stored under `k`, if any (the first entry for it). */
  function Get<V>(d: Dict<V>, k: string): Option<V> {
    if d == [] then None
    else if d[0].0 == k then Some(d[0].1)
    else Get(d[1..], k)
  }

  /** `k in d`. */
  predicate HasKey<V>(d: Dict<V>, k: string) {
    Get(d, k).Some?
  }

  /** The keys of `d`, in insertion order. */
  function Keys<V>(d: Dict<V>): (r: seq<string>)
    ensures |r| == |d|
  {
    if d == [] then [] else [d[0].0] + Keys(d[1..])
  }

  /** The `i`-th key is the key of the `i`-th entry. */
  lemma {:induction false} KeysAt<V>(d: Dict<V>)
    ensures forall i :: 0 <= i < |d| ==> Keys(d)[i] == d[i].0
  {
    if d != [] {
      KeysAt(d[1..]);
      assert forall i :: 0 < i < |d| ==> Keys(d)[i] == Keys(d[1..])[i - 1];
    }
  }

  /** `k in d` is membership in the key list. */
  lemma {:induction false} HasKeyInKeys<V>(d: Dict<V>, k: string)
    ensures HasKey(d, k) <==> k in Keys(d)
  {
    if d != [] {
      HasKeyInKeys(d[1..], k);
    }
  }

  predicate UniqueKeys<V>(d: Dict<V>) {
    d == [] || (!HasKey(d[1..], d[0].0) && UniqueKeys(d[1..]))
  }

  /** `d[k] = v`: overwrite in place when `k` is present, append otherwise. */
  function Set<V>(d: Dict<V>, k: string, v: V): (r: Dict<V>)
    ensures Get(r, k) == Some(v)
    ensures forall k' :: k' != k ==> Get(r, k') == Get(d, k')
    ensures HasKey(d, k) ==> Keys(r) == Keys(d)
    ensures !HasKey(d, k) ==> r == d + [(k, v)]
  {
    if d == [] then [(k, v)]
    else if d[0].0 == k then [(k, v)] + d[1..]
    else [d[0]] + Set(d[1..], k, v)
  }

  lemma {:induction false} SetKeepsUnique<V>(d: Dict<V>, k: string, v: V)
    requires UniqueKeys(d)
    ensures UniqueKeys(Set(d, k, v))
  {
    if d != [] && d[0].0 != k {
      SetKeepsUnique(d[1..], k, v);
      assert Set(d, k, v)[1..] == Set(d[1..], k, v);
    }
  }

  /** `d.update(e)`: set every entry of `e` into `d`, in `e`'s order. */
  function Update<V>(d: Dict<V>, e: Dict<V>): (r: Dict<V>)
    ensures forall k :: !HasKey(e, k) ==> Get(r, k) == Get(d, k)
    ensures forall k :: HasKey(e, k) ==> HasKey(r, k)
    decreases |e|
  {
    if e == [] then d else Update(Set(d, e[0].0, e[0].1), e[1..])
  }

  /** With a proper (unique-keyed) `e`, every key of `e` ends up with `e`'s value. */
  lemma {:induction false} UpdateTakesNewValues<V>(d: Dict<V>, e: Dict<V>, k: string)
    requires UniqueKeys(e) && HasKey(e, k)
    ensures Get(Update(d, e), k) == Get(e, k)
    decreases |e|
  {
    if e[0].0 != k {
      UpdateTakesNewValues(Set(d, e[0].0, e[0].1), e[1..], k);
    }
  }

  lemma {:induction false} UpdateKeepsUnique<V>(d: Dict<V>, e: Dict<V>)
    requires UniqueKeys(d)
    ensures UniqueKeys(Update(d, e))
    decreases |e|
  {
    if e != [] {
      SetKeepsUnique(d, e[0].0, e[0].1);
      UpdateKeepsUnique(Set(d, e[0].0, e[0].1), e[1..]);
    }
  }

  /** When `e` brings only keys `d` lacks, `d.update(e)` appends `e` after `d`. */
  lemma {:induction false} UpdateFreshKeysAppends<V>(d: Dict<V>, e: Dict<V>)
    requires UniqueKeys(e)
    requires forall k :: HasKey(e, k) ==> !HasKey(d, k)
    ensures Update(d, e) == d + e
    decreases |e|
  {
    if e != [] {
      var d' := Set(d, e[0].0, e[0].1);
      FreshTail(d, e);
      UpdateFreshKeysAppends(d', e[1..]);
      assert Update(d, e) == d' + e[1..];
      assert [e[0]] + e[1..] == e;
      assert d' + e[1..] == d + ([e[0]] + e[1..]);
    }
  }

  /** After the first entry of `e` is appended to `d`, the rest of `e` is still
      fresh and still free of repeats. */
  lemma FreshTail<V>(d: Dict<V>, e: Dict<V>)
    requires e != [] && UniqueKeys(e)
    requires forall k :: HasKey(e, k) ==> !HasKey(d, k)
    ensures UniqueKeys(e[1..])
    ensures Set(d, e[0].0, e[0].1) == d + [e[0]]
    ensures forall k :: HasKey(e[1..], k) ==> !HasKey(Set(d, e[0].0, e[0].1), k)
  {
    var (k0, v0) := e[0];
    assert HasKey(e, k0);
    assert Set(d, k0, v0) == d + [(k0, v0)];
    forall k | HasKey(e[1..], k)
      ensures !HasKey(Set(d, k0, v0), k)
    {
      assert k != k0;
      assert Get(e, k) == Get(e[1..], k);
      assert HasKey(e, k);
      assert Get(Set(d, k0, v0), k) == Get(d, k);
    }
  }


  /** Looking up in a dict whose first entry is known. */
  lemma GetCons<V>(k1: string, v1: V, rest: Dict<V>, k: string)
    ensures Get([(k1, v1)] + rest, k) == if k == k1 then Some(v1) else Get(rest, k)
  {
    assert ([(k1, v1)] + rest)[1..] == rest;
  }

  /** A key absent from the first `n` entries is found at entry `n` or after it. */
  lemma {:induction false} GetPast<V>(d: Dict<V>, n: nat, k: string)
    requires n < |d| && forall i :: 0 <= i < n ==> d[i].0 != k
    ensures Get(d, k) == if d[n].0 == k then Some(d[n].1) else Get(d[n + 1..], k)
    decreases n
  {
    if n > 0 {
      GetPast(d[1..], n - 1, k);
      assert d[1..][n - 1] == d[n];
      assert d[1..][n..] == d[n + 1..];
    }
  }

  /** Lookups in one-, two- and three-entry dict displays. */
  lemma GetOfOne<V>(k1: string, v1: V, k: string)
    ensures Get([(k1, v1)], k) == if k == k1 then Some(v1) else None
  {
    GetCons(k1, v1, [], k);
    assert [(k1, v1)] + [] == [(k1, v1)];
  }

  lemma GetOfTwo<V>(k1: string, v1: V, k2: string, v2: V, k: string)
    ensures Get([(k1, v1), (k2, v2)], k) == if k == k1 then Some(v1) else if k == k2 then Some(v2) else None
  {
    GetCons(k1, v1, [(k2, v2)], k);
    GetOfOne(k2, v2, k);
    assert [(k1, v1)] + [(k2, v2)] == [(k1, v1), (k2, v2)];
  }

  lemma GetOfThree<V>(k1: string, v1: V, k2: string, v2: V, k3: string, v3: V, k: string)
    ensures Get([(k1, v1), (k2, v2), (k3, v3)], k)
         == if k == k1 then Some(v1) else if k == k2 then Some(v2) else if k == k3 then Some(v3) else None
  {
    GetCons(k1, v1, [(k2, v2), (k3, v3)], k);
    GetOfTwo(k2, v2, k3, v3, k);
    assert [(k1, v1)] + [(k2, v2), (k3, v3)] == [(k1, v1), (k2, v2), (k3, v3)];
  }

  /** The entries of `d` whose key is not in `ks`, in their original order. */
  function RemoveKeys<V>(d: Dict<V>, ks: set<string>): (r: Dict<V>)
    ensures forall k :: Get(r, k) == if k in ks then None else Get(d, k)
    ensures |r| <= |d|
  {
    if d == [] then []
    else if d[0].0 in ks then RemoveKeys(d[1..], ks)
    else [d[0]] + RemoveKeys(d[1..], ks)
  }
}

=== FILE: legacy_api.dfy ===
/** The legacy client (`mediacloud_legacy/api.py`): its constructor, its
    `_query` dispatch with the verbs GET, PUT_JSON, PUT, POST_JSON and POST,
    `_queryForJson`, its Solr date helpers, its allow-list validators and the
    argument checks of a few endpoints. */
module LegacyApi {
  import opened Wrappers
  import opened Dicts
  import opened PyValues
  import opened SolrDates
  import opened Arguments
  import opened Transport
  import Media

  const V2ApiUrl: string := "https://api.mediacloud.org/api/v2/"
  const NoKeyMessage: string := "No api key set - nothing will work without this"

  /** `MediaCloud(auth_token, all_fields)`: a missing or empty token is refused;
      `all_fields` later counts by its truthiness. */
  function NewClient(authToken: Option<string>, allFields: Json): (r: Py<Client>)
    ensures r.Failure? <==> authToken.None? || authToken.value == ""
    ensures r.Failure? ==> r.error == MCException(JStr(NoKeyMessage), 0)
    ensures r.Success? ==> r.value.authToken == authToken && (r.value.allFields <==> Truthy(allFields))
  {
    if authToken.None? || authToken.value == "" then Failure(MCException(JStr(NoKeyMessage), 0))
    else Success(Client(authToken, Truthy(allFields)))
  }

  /** The verb that carries the key in the URL instead of the parameters. */
  const UrlKeyVerb: string := "POST_JSON"
  const Verbs: set<string> := {"GET", "PUT_JSON", "PUT", "POST_JSON", "POST"}

  /** The parameters after key and `all_fields` injection, for a dict. */
  function Prepared(client: Client, d: Dict<Json>, verb: string): Dict<Json> {
    InjectAuth(client, DictParams(d), verb, UrlKeyVerb).value.d
  }

  /** `_query(url, params, http_method, json_data)` up to the HTTP call: the
      request it sends, or what it raises first.  `jsonData` is `JNull` for
      None. */
  function Query(client: Client, url: string, params: Params, verb: string, jsonData: Json): (r: Py<WireRequest>)
    ensures InjectAuth(client, params, verb, UrlKeyVerb).Failure? ==>
      r == Failure(InjectAuth(client, params, verb, UrlKeyVerb).error)
    ensures params.DictParams? && verb !in Verbs ==> r == Failure(ValueError(UnsupportedMethodMessage(verb)))
    ensures params.DictParams? && verb == "GET" ==>
      r.Success? && r.value.url == url && SentParams(r.value) == Prepared(client, params.d, verb)
      && (r.value.httpMethod == POST <==> UrlLength(url, Prepared(client, params.d, verb)) > MaxHttpGetChars)
    ensures params.DictParams? && verb == "PUT" ==>
      r == Success(WireRequest(PUT, url, Prepared(client, params.d, verb), NoBody))
    ensures verb == "PUT_JSON" && jsonData == JNull && InjectAuth(client, params, verb, UrlKeyVerb).Success? ==>
      r == Success(WireRequest(PUT, url, [("key", OptStr(client.authToken))],
                               JsonBody(ParamsJson(InjectAuth(client, params, verb, UrlKeyVerb).value))))
    ensures params.DictParams? && verb == "PUT_JSON" && jsonData != JNull ==>
      r == Success(WireRequest(PUT, url, Prepared(client, params.d, verb), JsonBody(jsonData)))
    ensures verb == "POST_JSON" && InjectAuth(client, params, verb, UrlKeyVerb).Success? ==>
      (r.Success? <==> client.authToken.Some?)
      && (r.Success? ==> r.value == WireRequest(POST, UrlWithKey(client, url).value, [],
                                                JsonBody(ParamsJson(InjectAuth(client, params, verb, UrlKeyVerb).value))))
    ensures params.DictParams? && verb == "POST" ==>
      (r.Success? <==> client.authToken.Some?)
      && (r.Success? ==> r.value == WireRequest(POST, UrlWithKey(client, url).value, [],
                                                Form(Prepared(client, params.d, verb))))
  {
    var prepared :- InjectAuth(client, params, verb, UrlKeyVerb);
    if verb == "GET" then
      match prepared
      case DictParams(d) => Success(GetOrFormPost(url, d))
      case ListParams(_) => Failure(AttributeError)
    else if verb == "PUT_JSON" then
      if jsonData == JNull then
        Success(WireRequest(PUT, url, [("key", OptStr(client.authToken))], JsonBody(ParamsJson(prepared))))
      else
        match prepared
        case DictParams(d) => Success(WireRequest(PUT, url, d, JsonBody(jsonData)))
        case ListParams(_) => Failure(TypeError)
    else if verb == "PUT" then
      match prepared
      case DictParams(d) => Success(WireRequest(PUT, url, d, NoBody))
      case ListParams(_) => Failure(TypeError)
    else if verb == "POST_JSON" then
      var withKey :- UrlWithKey(client, url);
      Success(WireRequest(POST, withKey, [], JsonBody(ParamsJson(prepared))))
    else if verb == "POST" then
      var withKey :- UrlWithKey(client, url);
      match prepared
      case DictParams(d) => Success(WireRequest(POST, withKey, [], Form(d)))
      case ListParams(_) => Failure(TypeError)
    else Failure(ValueError(UnsupportedMethodMessage(verb)))
  }

  /** `_queryForJson`: send the request through `server` and interpret the
      response. */
  function QueryForJson(client: Client, url: string, params: Params, verb: string, jsonData: Json,
                        server: WireRequest -> Response): (r: Py<Json>)
    ensures Query(client, url, params, verb, jsonData).Failure? ==>
      r == Failure(Query(client, url, params, verb, jsonData).error)
    ensures Query(client, url, params, verb, jsonData).Success? ==>
      r == Interpret(server(Query(client, url, params, verb, jsonData).value))
    ensures r.Success? ==> !ErrorEnvelope(r.value)
  {
    var request :- Query(client, url, params, verb, jsonData);
    Interpret(server(request))
  }

  /** Whatever the verb, a dict-parameter request that is sent at all carries a
      key: in the parameters for every verb but POST_JSON, in the URL for
      POST_JSON.  A key the caller supplied is passed on untouched by GET, PUT
      and POST. */
  lemma KeyAlwaysSent(client: Client, url: string, d: Dict<Json>, verb: string, jsonData: Json)
    requires Query(client, url, DictParams(d), verb, jsonData).Success?
    ensures verb != UrlKeyVerb ==> HasKey(SentParams(Query(client, url, DictParams(d), verb, jsonData).value), "key")
    ensures verb == UrlKeyVerb ==>
      client.authToken.Some? && Query(client, url, DictParams(d), verb, jsonData).value.url == url + "?key=" + client.authToken.value
    ensures HasKey(d, "key") && verb in {"GET", "PUT", "POST"} ==>
      Get(SentParams(Query(client, url, DictParams(d), verb, jsonData).value), "key") == Get(d, "key")
  {
    var p := Prepared(client, d, verb);
    var request := Query(client, url, DictParams(d), verb, jsonData).value;
    if verb == "PUT_JSON" && jsonData == JNull {
      GetOfOne("key", OptStr(client.authToken), "key");
      assert SentParams(request) == [("key", OptStr(client.authToken))];
    } else if verb == "POST" {
      assert SentParams(request) == [] + p == p;
    } else if verb == "PUT_JSON" || verb == "PUT" {
      assert SentParams(request) == p + [] == p;
    }
  }

  /** The GET-to-POST switch is invisible to a server that treats a form POST
      like the GET with the same parameters. */
  ghost predicate EncodingAgnostic(server: WireRequest -> Response) {
    forall url: string, d: Dict<Json> :: server(WireRequest(POST, url, [], Form(d))) == server(WireRequest(GET, url, d, NoBody))
  }

  lemma GetFallbackTransparent(client: Client, url: string, d: Dict<Json>, server: WireRequest -> Response)
    requires EncodingAgnostic(server)
    ensures QueryForJson(client, url, DictParams(d), "GET", JNull, server)
         == Interpret(server(WireRequest(GET, url, Prepared(client, d, "GET"), NoBody)))
  {
    var p := Prepared(client, d, "GET");
    assert server(WireRequest(POST, url, [], Form(p))) == server(WireRequest(GET, url, p, NoBody));
  }

  /** A GET of exactly `MAX_HTTP_GET_CHARS` measured characters stays a GET; one
      more character turns it into a POST. */
  lemma GetThreshold(client: Client, url: string, d: Dict<Json>)
    requires UrlLength(url, Prepared(client, d, "GET")) == MaxHttpGetChars
    ensures Query(client, url, DictParams(d), "GET", JNull).value.httpMethod == GET
    ensures Query(client, url + "/", DictParams(d), "GET", JNull).value.httpMethod == POST
  {
  }

  // ----- Solr date helpers -----

  const DateFields: seq<string> := ["publish_day", "publish_week", "publish_month", "publish_year"]

  function InvalidDateFieldMessage(field: string): string {
    "Not a valid date field " + field
  }

  /** `publish_date_query`, start-inclusive, end-exclusive and on `publish_day`
      unless told otherwise: the field must be one of the date fields, and the
      clause is `field:range`. */
  function PublishDateQuery(start: CalendarDate, end: CalendarDate, startInclusive: bool := true,
                            endInclusive: bool := false, field: string := "publish_day"): (r: Py<string>)
    ensures r.Success? <==> field in DateFields
    ensures r.Failure? ==> r.error == MCException(JStr(InvalidDateFieldMessage(field)), 0)
    ensures r.Success? ==>
      ParseFieldClause(r.value) == Some((field, DateRange(start, end, startInclusive, endInclusive)))
  {
    DatesAsQueryClause(start, end, startInclusive, endInclusive, field)
  }

  /** `dates_as_query_clause`, the same check and clause with both ends
      inclusive by default. */
  function DatesAsQueryClause(start: CalendarDate, end: CalendarDate, startInclusive: bool := true,
                              endInclusive: bool := true, field: string := "publish_day"): (r: Py<string>)
    ensures r.Success? <==> field in DateFields
    ensures r.Failure? ==> r.error == MCException(JStr(InvalidDateFieldMessage(field)), 0)
    ensures r.Success? ==>
      ParseFieldClause(r.value) == Some((field, DateRange(start, end, startInclusive, endInclusive)))
  {
    if field !in DateFields then Failure(MCException(JStr(InvalidDateFieldMessage(field)), 0))
    else
      FieldClauseRoundTrip(field, DateRange(start, end, startInclusive, endInclusive));
      Success(FieldClause(field, DateRange(start, end, startInclusive, endInclusive)))
  }

  /** The defaults: `publish_date_query(start, end)` ends with `}` and
      `dates_as_query_clause(start, end)` with `]`, both on `publish_day`; the
      two differ in nothing else. */
  lemma DateQueryDefaults(start: CalendarDate, end: CalendarDate)
    ensures var q := PublishDateQuery(start, end);
            q.Success? && q.value[..12] == "publish_day:" && q.value[12] == '[' && q.value[|q.value| - 1] == '}'
    ensures var q := DatesAsQueryClause(start, end);
            q.Success? && q.value[..12] == "publish_day:" && q.value[12] == '[' && q.value[|q.value| - 1] == ']'
  {
    var r1 := DateRange(start, end, true, false);
    var r2 := DateRange(start, end, true, true);
    assert |"publish_day"| == 11;
    var s1 := SolrDateRange(start, end, true, false);
    var s2 := SolrDateRange(start, end, true, true);
    var q1 := FieldClause("publish_day", r1);
    var q2 := FieldClause("publish_day", r2);
    assert q1[12..] == s1 && q1[|q1| - 1] == s1[45];
    assert q2[12..] == s2 && q2[|q2| - 1] == s2[45];
    assert q1[..12] == "publish_day:" by { assert q1[..11] == "publish_day" && q1[11] == ':'; }
    assert q2[..12] == "publish_day:" by { assert q2[..11] == "publish_day" && q2[11] == ':'; }
  }

  /** The clause for 2 to 3 June 2014 on each date field and under each pair of
      flags. */
  lemma PublishDateQueryJune2014(start: CalendarDate, end: CalendarDate, startInclusive: bool, endInclusive: bool,
                                 field: string)
    requires start == Date(2014, 6, 2) && end == Date(2014, 6, 3) && field in DateFields
    ensures PublishDateQuery(start, end, startInclusive, endInclusive, field)
         == Success(field + ":" + [if startInclusive then '[' else '{'] + "2014-06-02T00:00:00Z" + " TO "
                    + "2014-06-03T00:00:00Z" + [if endInclusive then ']' else '}'])
  {
    var range := DateRange(start, end, startInclusive, endInclusive);
    FieldClauseJune2014(field, start, end, startInclusive, endInclusive);
    assert PublishDateQuery(start, end, startInclusive, endInclusive, field) == Success(FieldClause(field, range));
  }

  /** The clause for 2 to 3 June 2014 when the flags are left to their
      defaults, with the field defaulted or named. */
  lemma PublishDateDefaultsJune2014(start: CalendarDate, end: CalendarDate, field: string)
    requires start == Date(2014, 6, 2) && end == Date(2014, 6, 3) && field in DateFields
    ensures PublishDateQuery(start, end)
         == Success("publish_day" + ":" + "[" + "2014-06-02T00:00:00Z" + " TO " + "2014-06-03T00:00:00Z" + "}")
    ensures PublishDateQuery(start, end, field := field)
         == Success(field + ":" + "[" + "2014-06-02T00:00:00Z" + " TO " + "2014-06-03T00:00:00Z" + "}")
  {
    PublishDateQueryJune2014(start, end, true, false, "publish_day");
    PublishDateQueryJune2014(start, end, true, false, field);
  }

  // ----- allow-list validators -----

  const SplitPeriods: seq<string> := ["day", "week", "month", "year"]

  /** `_validate_split_period_param`: None or a split period, handed back. */
  function ValidateSplitPeriod(period: Json): (r: Py<Json>)
    ensures r.Success? <==> period == JNull || (period.JStr? && period.s in SplitPeriods)
    ensures r.Success? ==> r.value == period
    ensures r.Failure? ==> r.error == ValueError("Invalid story count split period - \"" + Str(period) + "\"")
  {
    ValidateStringChoice(period, true, SplitPeriods, "Invalid story count split period - \"" + Str(period) + "\"")
  }

  const TopicSortOrders: seq<string> := ["inlink", "facebook", "twitter", "random", "", "post_count",
                                         "author_count", "channel_count"]

  /** `_validate_topic_sort_param`. */
  function ValidateTopicSort(order: Json): (r: Py<Json>)
    ensures r.Success? <==> order == JNull || (order.JStr? && order.s in TopicSortOrders)
    ensures r.Failure? ==> r.error == ValueError("Invalid sort specified: " + Str(order))
  {
    ValidateStringChoice(order, true, TopicSortOrders, "Invalid sort specified: " + Str(order))
  }

  /** `VALID_FEED_TYPES`. */
  const FeedTypes: seq<string> := ["syndicated", "web_page", "podcast"]

  /** The message `_validate_feed_type` raises: its format string has no
      placeholder, so the list of types is never filled in. */
  const FeedTypeMessageAsWritten: string := "feed_type must be on of []"

  /** The message with the types listed, as the `.format` call intends. */
  function FeedTypeMessage(): string {
    "feed_type must be on of [" + Join(", ", FeedTypes) + "]"
  }

  /** `_validate_feed_type` as written: the refusal carries the unfilled message. */
  function ValidateFeedTypeAsWritten(feedType: Json): (r: Py<Json>)
    ensures r.Success? <==> feedType.JStr? && feedType.s in FeedTypes
    ensures r.Failure? ==> r.error == ValueError(FeedTypeMessageAsWritten)
  {
    ValidateStringChoice(feedType, false, FeedTypes, FeedTypeMessageAsWritten)
  }

  /** `_validate_feed_type` with the message the `.format` call intends. */
  function ValidateFeedType(feedType: Json): (r: Py<Json>)
    ensures r.Success? <==> feedType.JStr? && feedType.s in FeedTypes
    ensures r.Failure? ==> r.error == ValueError(FeedTypeMessage())
  {
    ValidateStringChoice(feedType, false, FeedTypes, FeedTypeMessage())
  }

  /** The refusal as written names none of the valid types... */
  lemma FeedTypeMessageNamesNoType(feedType: Json, valid: string)
    requires ValidateFeedTypeAsWritten(feedType).Failure? && valid in FeedTypes
    ensures !IsSubstring(valid, ValidateFeedTypeAsWritten(feedType).error.text)
  {
    if valid == "syndicated" {
      MissingCharNotSubstring(valid, FeedTypeMessageAsWritten, 4);
    } else if valid == "web_page" {
      MissingCharNotSubstring(valid, FeedTypeMessageAsWritten, 0);
    } else {
      MissingCharNotSubstring(valid, FeedTypeMessageAsWritten, 3);
    }
  }

  /** ... and the intended one names every one of them. */
  lemma FeedTypeMessageNamesEveryType(feedType: Json, valid: string)
    requires ValidateFeedType(feedType).Failure? && valid in FeedTypes
    ensures IsSubstring(valid, ValidateFeedType(feedType).error.text)
  {
    var i :| 0 <= i < |FeedTypes| && FeedTypes[i] == valid;
    JoinHasPart(", ", FeedTypes, i);
    SubstringExtend(valid, Join(", ", FeedTypes), "feed_type must be on of [", "]");
  }

  // ----- endpoint argument checks -----

  const SortRandom: string := "random"
  const SortProcessedStoriesId: string := "processed_stories_id"

  /** `1 if flag is True else 0`. */
  function FlagWire(flag: Json): Json {
    JInt(if flag == JBool(true) then 1 else 0)
  }

  /** `storyList`'s parameters: a random order cannot be paged through, so any
      paging position other than 0 or None is refused before anything is
      sent. */
  function StoryListParams(solrQuery: Json, solrFilter: Json, lastProcessedStoriesId: Json, rows: Json, wc: Json,
                           feedsId: Json, sort: Json, showFeeds: Json): (r: Py<Dict<Json>>)
    ensures r.Failure? <==> sort == JStr(SortRandom) && !PyIn(lastProcessedStoriesId, [JInt(0), JNull])
    ensures r.Failure? ==> r.error == ValueError("You can't page through randomly sorted story lists")
    ensures r.Success? ==> Keys(r.value) == ["q", "fq", "last_processed_stories_id", "rows", "sort", "wc",
                                             "feeds_id", "show_feeds"]
    ensures r.Success? ==> Get(r.value, "wc") == Some(JInt(if wc == JBool(true) then 1 else 0))
    ensures r.Success? ==> Get(r.value, "sort") == Some(sort)
    ensures r.Success? ==> Get(r.value, "q") == Some(solrQuery) && Get(r.value, "fq") == Some(solrFilter)
    ensures r.Success? ==> Get(r.value, "last_processed_stories_id") == Some(lastProcessedStoriesId)
                           && Get(r.value, "rows") == Some(rows)
    ensures r.Success? ==> Get(r.value, "feeds_id") == Some(feedsId) && Get(r.value, "show_feeds") == Some(FlagWire(showFeeds))
  {
    if PyEq(sort, JStr(SortRandom)) && !PyIn(lastProcessedStoriesId, [JInt(0), JNull]) then
      Failure(ValueError("You can't page through randomly sorted story lists"))
    else
      var d := [("q", solrQuery), ("fq", solrFilter), ("last_processed_stories_id", lastProcessedStoriesId),
                ("rows", rows), ("sort", sort), ("wc", FlagWire(wc)), ("feeds_id", feedsId),
                ("show_feeds", FlagWire(showFeeds))];
      GetPast(d, 5, "wc");
      GetPast(d, 4, "sort");
      GetPast(d, 2, "last_processed_stories_id");
      GetPast(d, 3, "rows");
      GetPast(d, 6, "feeds_id");
      GetPast(d, 7, "show_feeds");
      KeysAt(d);
      Success(d)
  }

  /** `topicCreate`'s parameters: the required fields, then the optional
      keyword arguments (which must be allowed), and at least one truthy media
      selector. */
  function TopicCreateParams(name: Json, solrSeedQuery: Json, description: Json, startDate: Json, endDate: Json,
                             mediaIds: Json, mediaTagsIds: Json, kwargs: Dict<Json>): (r: Py<Dict<Json>>)
    ensures (exists i :: 0 <= i < |kwargs| && kwargs[i].0 !in TopicCreateOptional) ==> r.Failure? && r.error.ValueError?
    ensures (forall i :: 0 <= i < |kwargs| ==> kwargs[i].0 in TopicCreateOptional) ==>
      (r.Failure? <==> !Truthy(mediaIds) && !Truthy(mediaTagsIds))
    ensures r.Failure? && (forall i :: 0 <= i < |kwargs| ==> kwargs[i].0 in TopicCreateOptional) ==>
      r.error == ValueError(NoMediaMessage)
    ensures r.Success? ==> Get(r.value, "media_ids") == Some(mediaIds) && Get(r.value, "media_tags_ids") == Some(mediaTagsIds)
                           && Get(r.value, "name") == Some(name)
    ensures r.Success? ==> Get(r.value, "solr_seed_query") == Some(solrSeedQuery)
                           && Get(r.value, "description") == Some(description)
                           && Get(r.value, "start_date") == Some(startDate) && Get(r.value, "end_date") == Some(endDate)
    ensures r.Success? ==> forall k :: HasKey(kwargs, k) ==> HasKey(r.value, k)
    ensures r.Success? && UniqueKeys(kwargs) ==> forall k :: HasKey(kwargs, k) ==> Get(r.value, k) == Get(kwargs, k)
    ensures r.Success? ==> forall k :: !HasKey(kwargs, k) ==>
      Get(r.value, k) == Get(TopicCreateBase(name, solrSeedQuery, description, startDate, endDate, mediaIds, mediaTagsIds), k)
  {
    var base := TopicCreateBase(name, solrSeedQuery, description, startDate, endDate, mediaIds, mediaTagsIds);
    var params :- ValidateParams(base, TopicCreateOptional, kwargs);
    TopicCreateBaseLookups(base, kwargs, params);
    if !Truthy(mediaIds) && !Truthy(mediaTagsIds) then Failure(ValueError(NoMediaMessage))
    else Success(params)
  }

  /** `mediaCreate`: clean every item (the boolean fields under the coercion
      `c`: `Media.ByKey` as written, `Media.ByValue` as intended), then POST the
      list as JSON with the key in the URL. */
  function MediaCreateRequest(client: Client, items: seq<Dict<Json>>, c: Media.BoolCoercion): (r: Py<WireRequest>)
    ensures Media.CleanCreateItems(items, Media.Falsy, c).Failure? ==>
      r == Failure(Media.CleanCreateItems(items, Media.Falsy, c).error)
    ensures Media.CleanCreateItems(items, Media.Falsy, c).Success? ==>
      (r.Success? <==> !client.allFields && client.authToken.Some?)
    ensures r.Success? ==>
      r.value.httpMethod == POST && r.value.url == UrlWithKey(client, V2ApiUrl + "media/create").value
      && r.value.body == JsonBody(JArr(ObjectsOf(Media.CleanCreateItems(items, Media.Falsy, c).value)))
  {
    var cleaned :- Media.CleanCreateItems(items, Media.Falsy, c);
    Query(client, V2ApiUrl + "media/create", ListParams(ObjectsOf(cleaned)), "POST_JSON", JNull)
  }

  /** `mediaUpdate`: clean the new properties (booleans under `c`), add
      `media_id`, and PUT them as JSON; without `json_data` the properties (key included) form the body and
      the key alone the query string. */
  function MediaUpdateRequest(client: Client, mediaId: Json, props: Dict<Json>, c: Media.BoolCoercion): (r: Py<WireRequest>)
    ensures Media.CleanUpdate(mediaId, props, Media.Falsy, c).Failure? ==>
      r == Failure(Media.CleanUpdate(mediaId, props, Media.Falsy, c).error)
    ensures r.Success? <==> Media.CleanUpdate(mediaId, props, Media.Falsy, c).Success?
    ensures r.Success? ==>
      r.value == WireRequest(PUT, V2ApiUrl + "media/update", [("key", OptStr(client.authToken))],
                             JsonBody(JObj(Prepared(client, Media.CleanUpdate(mediaId, props, Media.Falsy, c).value,
                                                    "PUT_JSON"))))
  {
    match Media.CleanUpdate(mediaId, props, Media.Falsy, c)
    case Failure(e) => Failure(e)
    case Success(cleaned) =>
      PutJsonWithoutData(client, V2ApiUrl + "media/update", cleaned);
      Query(client, V2ApiUrl + "media/update", DictParams(cleaned), "PUT_JSON", JNull)
  }

  /** The body of a successful update names the media source being changed and
      carries every non-boolean property the caller gave. */
  lemma MediaUpdateCarriesId(client: Client, mediaId: Json, props: Dict<Json>, c: Media.BoolCoercion, k: string)
    requires Media.CleanUpdate(mediaId, props, Media.Falsy, c).Success?
    requires k != "key" && k != "all_fields" && k != "media_id" && k !in Media.UpdateBooleans
    ensures var body := MediaUpdateRequest(client, mediaId, props, c).value.body;
      body.JsonBody? && body.payload.JObj?
      && Get(body.payload.fields, "media_id") == Some(mediaId)
      && Get(body.payload.fields, k) == Get(props, k)
  {
    var cleaned := Media.CleanUpdate(mediaId, props, Media.Falsy, c).value;
    assert Get(cleaned, "media_id") == Some(mediaId) && Get(cleaned, k) == Get(props, k);
    InjectAuthKeeps(client, cleaned, "PUT_JSON", UrlKeyVerb, "media_id");
    InjectAuthKeeps(client, cleaned, "PUT_JSON", UrlKeyVerb, k);
  }

  /** The flag `is_monitored`, when given, reaches the server as 1 or 0: as
      written (`Media.ByKey`) always 1, because the key is tested; with the
      value tested (`Media.ByValue`) 1 exactly when the caller's value is
      truthy. */
  lemma MediaUpdateSendsFlag(client: Client, mediaId: Json, props: Dict<Json>, c: Media.BoolCoercion)
    requires Media.CleanUpdate(mediaId, props, Media.Falsy, c).Success?
    requires HasKey(props, "is_monitored")
    ensures var body := MediaUpdateRequest(client, mediaId, props, c).value.body;
      body.JsonBody? && body.payload.JObj?
      && (c == Media.ByKey ==> Get(body.payload.fields, "is_monitored") == Some(JInt(1)))
      && (c == Media.ByValue ==>
            Get(body.payload.fields, "is_monitored") == Some(JInt(if Truthy(Get(props, "is_monitored").value) then 1 else 0)))
  {
    var cleaned := Media.CleanUpdate(mediaId, props, Media.Falsy, c).value;
    assert "is_monitored" in Media.UpdateBooleans;
    assert Get(cleaned, "is_monitored") == Some(Media.Coerce(c, "is_monitored", Get(props, "is_monitored").value));
    InjectAuthKeeps(client, cleaned, "PUT_JSON", UrlKeyVerb, "is_monitored");
  }

  /** A PUT_JSON without `json_data` sends the key alone on the query string and
      the prepared parameters, every caller value intact, as the body. */
  lemma PutJsonWithoutData(client: Client, url: string, d: Dict<Json>)
    ensures Query(client, url, DictParams(d), "PUT_JSON", JNull)
         == Success(WireRequest(PUT, url, [("key", OptStr(client.authToken))], JsonBody(JObj(Prepared(client, d, "PUT_JSON")))))
    ensures forall k :: k != "key" && k != "all_fields" ==> Get(Prepared(client, d, "PUT_JSON"), k) == Get(d, k)
  {
  }
}

=== FILE: media.dfy ===
/** The input cleaning `mediaCreate` and `mediaUpdate` perform before they send
    anything: every field must be one the endpoint accepts, the boolean fields
    are sent as 1 or 0, and the media URL must not be empty.  Both client
    versions share the loop; they differ in how they judge an empty URL. */
module Media {
  import opened Wrappers
  import opened Dicts
  import opened PyValues

  const CreateFields: seq<string> := ["url", "name", "foreign_rss_links", "content_delay", "feeds", "tags_ids",
                                      "editor_notes", "public_notes", "is_monitored"]
  const CreateBooleans: seq<string> := ["foreign_rss_links", "is_monitored"]
  const UpdateFields: seq<string> := ["url", "name", "foreign_rss_links", "content_delay", "editor_notes",
                                      "public_notes", "is_monitored"]
  const UpdateBooleans: seq<string> := ["is_monitored"]

  /** How a boolean field is turned into 1 or 0.  The code as written computes
      `1 if k else 0` from the field's NAME (`ByKey`), which is never empty; the
      evident intent is to test the field's value (`ByValue`). */
  datatype BoolCoercion = ByKey | ByValue

  function Coerce(c: BoolCoercion, k: string, v: Json): Json {
    match c
    case ByKey => JInt(if |k| > 0 then 1 else 0)
    case ByValue => JInt(if Truthy(v) then 1 else 0)
  }

  function InvalidFieldMessage(action: string, k: string): string {
    "Invalid param in attempt to " + action + " media: " + k
  }

  /** The field loop: raise ValueError at the first field not in `allowed`, and
      coerce each boolean field in place. */
  function CleanFields(media: Dict<Json>, allowed: seq<string>, booleans: seq<string>, action: string,
                       c: BoolCoercion): (r: Py<Dict<Json>>)
    ensures r.Failure? <==> exists i :: 0 <= i < |media| && media[i].0 !in allowed
    ensures r.Failure? ==> exists i :: 0 <= i < |media| && media[i].0 !in allowed
                                       && r.error == ValueError(InvalidFieldMessage(action, media[i].0))
                                       && forall j :: 0 <= j < i ==> media[j].0 in allowed
    ensures r.Success? ==> |r.value| == |media| && forall i :: 0 <= i < |media| ==>
      r.value[i].0 == media[i].0
      && r.value[i].1 == if media[i].0 in booleans then Coerce(c, media[i].0, media[i].1) else media[i].1
  {
    if media == [] then Success([])
    else if media[0].0 !in allowed then Failure(ValueError(InvalidFieldMessage(action, media[0].0)))
    else
      var rest := CleanFields(media[1..], allowed, booleans, action, c);
      assert forall i :: 0 < i < |media| ==> media[i] == media[1..][i - 1];
      match rest
      case Failure(e) =>
        var i :| 0 <= i < |media[1..]| && media[1..][i].0 !in allowed
                 && e == ValueError(InvalidFieldMessage(action, media[1..][i].0))
                 && forall j :: 0 <= j < i ==> media[1..][j].0 in allowed;
        assert media[i + 1] == media[1..][i];
        Failure(e)
      case Success(tail) =>
        var (k, v) := media[0];
        Success([(k, if k in booleans then Coerce(c, k, v) else v)] + tail)
  }

  /** The as-written coercion sends 1 for every boolean field present, whatever
      its value: `is_monitored=False` reaches the server as 1. */
  lemma ByKeySendsFalseAsOne(url: string)
    ensures CleanFields([("url", JStr(url)), ("is_monitored", JBool(false))], UpdateFields, UpdateBooleans,
                        "update", ByKey)
         == Success([("url", JStr(url)), ("is_monitored", JInt(1))])
  {
    var media := [("url", JStr(url)), ("is_monitored", JBool(false))];
    var r := CleanFields(media, UpdateFields, UpdateBooleans, "update", ByKey);
    assert media[0].0 in UpdateFields && media[1].0 in UpdateFields;
    assert "url" !in UpdateBooleans && "is_monitored" in UpdateBooleans;
    assert r.Success? && |r.value| == 2;
    assert r.value[0] == ("url", JStr(url));
    assert r.value[1] == ("is_monitored", JInt(1));
    assert r.value == [r.value[0], r.value[1]];
  }

  /** With the value-based coercion a boolean field is sent as 1 exactly when the
      caller's value is truthy, so False, 0, None and "" are sent as 0. */
  lemma ByValueKeepsTruth(media: Dict<Json>, allowed: seq<string>, booleans: seq<string>, action: string, i: nat)
    requires CleanFields(media, allowed, booleans, action, ByValue).Success?
    requires i < |media| && media[i].0 in booleans
    ensures CleanFields(media, allowed, booleans, action, ByValue).value[i].1 == JInt(1) <==> Truthy(media[i].1)
    ensures media[i].1 == JBool(false) ==> CleanFields(media, allowed, booleans, action, ByValue).value[i].1 == JInt(0)
  {
  }

  /** How an empty URL is recognised: `not url` in the legacy client,
      `len(url) == 0` in the current one (which raises TypeError for a value
      without a length). */
  datatype EmptyUrlTest = Falsy | ZeroLength

  /** `url is None or <empty>`, raising when the length cannot be taken. */
  function UrlMissing(url: Json, test: EmptyUrlTest): (r: Py<bool>)
    ensures test == Falsy ==> r == Success(!Truthy(url))
    ensures test == ZeroLength ==> (r.Success? <==> url == JNull || Len(url).Success?)
    ensures test == ZeroLength && r.Success? ==> (r.value <==> url == JNull || Len(url).value == 0)
  {
    if url == JNull then Success(true)
    else match test
      case Falsy => Success(!Truthy(url))
      case ZeroLength =>
        var n :- Len(url);
        Success(n == 0)
  }

  const NoUrlMessage: string := "You must supply a media url"
  const EmptyUrlMessage: string := "The media URL can't be empty"

  /** The per-item checks of `mediaCreate`: clean the fields, then demand a
      URL, raising KeyError when there is none at all. */
  function CleanCreateItem(media: Dict<Json>, test: EmptyUrlTest, c: BoolCoercion): (r: Py<Dict<Json>>)
    ensures r.Success? ==> CleanFields(media, CreateFields, CreateBooleans, "create", c) == Success(r.value)
    ensures r.Success? ==> HasKey(media, "url") && UrlMissing(Get(media, "url").value, test) == Success(false)
    ensures CleanFields(media, CreateFields, CreateBooleans, "create", c).Success? && !HasKey(media, "url") ==>
      r == Failure(KeyError("url"))
    ensures CleanFields(media, CreateFields, CreateBooleans, "create", c).Success? && HasKey(media, "url")
            && UrlMissing(Get(media, "url").value, test) == Success(true) ==>
      r == Failure(ValueError(NoUrlMessage))
  {
    var cleaned :- CleanFields(media, CreateFields, CreateBooleans, "create", c);
    CleanKeepsLookups(media, cleaned, CreateBooleans, c, "url");
    var url :- Index(JObj(cleaned), "url");
    var missing :- UrlMissing(url, test);
    if missing then Failure(ValueError(NoUrlMessage)) else Success(cleaned)
  }

  /** A cleaned dict answers a lookup of a non-boolean field as the original. */
  lemma {:induction false} CleanKeepsLookups(media: Dict<Json>, cleaned: Dict<Json>, booleans: seq<string>,
                                              c: BoolCoercion, k: string)
    requires |cleaned| == |media|
    requires forall i :: 0 <= i < |media| ==>
      (cleaned[i].0 == media[i].0
       && cleaned[i].1 == if media[i].0 in booleans then Coerce(c, media[i].0, media[i].1) else media[i].1)
    requires k !in booleans
    ensures Get(cleaned, k) == Get(media, k)
  {
    if media != [] && media[0].0 != k {
      CleanKeepsLookups(media[1..], cleaned[1..], booleans, c, k);
    }
  }

  /** A cleaned dict answers a lookup of a boolean field with the coerced
      original value. */
  lemma {:induction false} CleanCoercesLookups(media: Dict<Json>, cleaned: Dict<Json>, booleans: seq<string>,
                                                c: BoolCoercion, k: string)
    requires |cleaned| == |media|
    requires forall i :: 0 <= i < |media| ==>
      (cleaned[i].0 == media[i].0
       && cleaned[i].1 == if media[i].0 in booleans then Coerce(c, media[i].0, media[i].1) else media[i].1)
    requires k in booleans && HasKey(media, k)
    ensures Get(cleaned, k) == Some(Coerce(c, k, Get(media, k).value))
  {
    if media[0].0 != k {
      CleanCoercesLookups(media[1..], cleaned[1..], booleans, c, k);
    }
  }

  /** The loop of `mediaCreate` over its list of media: each item in turn. */
  function CleanCreateItems(items: seq<Dict<Json>>, test: EmptyUrlTest, c: BoolCoercion): (r: Py<seq<Dict<Json>>>)
    ensures r.Success? <==> forall i :: 0 <= i < |items| ==> CleanCreateItem(items[i], test, c).Success?
    ensures r.Success? ==> |r.value| == |items|
                           && forall i :: 0 <= i < |items| ==> r.value[i] == CleanCreateItem(items[i], test, c).value
    ensures r.Failure? ==> exists i :: 0 <= i < |items| && CleanCreateItem(items[i], test, c) == Failure(r.error)
                                       && forall j :: 0 <= j < i ==> CleanCreateItem(items[j], test, c).Success?
  {
    var steps := seq(|items|, i requires 0 <= i < |items| => CleanCreateItem(items[i], test, c));
    assert forall i :: 0 <= i < |items| ==> steps[i] == CleanCreateItem(items[i], test, c);
    AllOk(steps)
  }


  /** The checks of `mediaUpdate`: clean the fields, refuse an empty URL when one
      is given, then add `media_id`. */
  function CleanUpdate(mediaId: Json, props: Dict<Json>, test: EmptyUrlTest, c: BoolCoercion): (r: Py<Dict<Json>>)
    ensures CleanFields(props, UpdateFields, UpdateBooleans, "update", c).Failure? ==>
      r == Failure(CleanFields(props, UpdateFields, UpdateBooleans, "update", c).error)
    ensures CleanFields(props, UpdateFields, UpdateBooleans, "update", c).Success? && !HasKey(props, "url") ==>
      r.Success?
    ensures CleanFields(props, UpdateFields, UpdateBooleans, "update", c).Success? && HasKey(props, "url")
            && UrlMissing(Get(props, "url").value, test) == Success(true) ==>
      r == Failure(ValueError(EmptyUrlMessage))
    ensures CleanFields(props, UpdateFields, UpdateBooleans, "update", c).Success? && HasKey(props, "url")
            && UrlMissing(Get(props, "url").value, test).Failure? ==>
      r == Failure(UrlMissing(Get(props, "url").value, test).error)
    ensures r.Success? <==> CleanFields(props, UpdateFields, UpdateBooleans, "update", c).Success?
                            && (!HasKey(props, "url") || UrlMissing(Get(props, "url").value, test) == Success(false))
    ensures r.Success? ==> Get(r.value, "media_id") == Some(mediaId)
    ensures r.Success? ==> forall k :: k != "media_id" && k !in UpdateBooleans ==> Get(r.value, k) == Get(props, k)
    ensures r.Success? ==> forall k :: k in UpdateBooleans && HasKey(props, k) ==>
      Get(r.value, k) == Some(Coerce(c, k, Get(props, k).value))
  {
    var cleaned :- CleanFields(props, UpdateFields, UpdateBooleans, "update", c);
    forall k | k !in UpdateBooleans ensures Get(cleaned, k) == Get(props, k) {
      CleanKeepsLookups(props, cleaned, UpdateBooleans, c, k);
    }
    forall k | k in UpdateBooleans && HasKey(props, k) ensures Get(cleaned, k) == Some(Coerce(c, k, Get(props, k).value)) {
      CleanCoercesLookups(props, cleaned, UpdateBooleans, c, k);
    }
    if HasKey(cleaned, "url") then
      var missing :- UrlMissing(Get(cleaned, "url").value, test);
      if missing then Failure(ValueError(EmptyUrlMessage)) else Success(Set(cleaned, "media_id", mediaId))
    else Success(Set(cleaned, "media_id", mediaId))
  }
}

=== FILE: metadata.dfy ===
/** The metadata helpers: the tags of one tag set on a media source or a story,
    the first such tag, and the `metadata` summary both list endpoints attach to
    every item they return.  Both client versions share this logic. */
module Metadata {
  import opened Wrappers
  import opened Dicts
  import opened PyValues
  import Tags

  /** The list key holding a media source's tags, and a story's. */
  const MediaTagsKey: string := "media_source_tags"
  const StoryTagsKey: string := "story_tags"

  /** The metadata summary of a media source: its name for each tag set. */
  const MediaMetadataSets: seq<(string, int)> := [
    ("pub_country", Tags.TagSetPublicationCountry),
    ("pub_state", Tags.TagSetPublicationState),
    ("language", Tags.TagSetPrimaryLanguage),
    ("about_country", Tags.TagSetCountryOfFocus),
    ("media_type", Tags.TagSetMediaType)
  ]

  /** The metadata summary of a story. */
  const StoryMetadataSets: seq<(string, int)> := [
    ("date_guess_method", Tags.TagSetDateGuessMethod),
    ("extractor_version", Tags.TagSetExtractorVersion),
    ("geocoder_version", Tags.TagSetGeocoderVersion),
    ("nyt_themes_version", Tags.TagSetNytThemesVersion)
  ]

  /** A tag that belongs to the given set: a dict whose `tag_sets_id` is `==` to it. */
  predicate InTagSet(t: Json, tagSetsId: int) {
    t.JObj? && HasKey(t.fields, "tag_sets_id") && PyEq(Get(t.fields, "tag_sets_id").value, JInt(tagSetsId))
  }

  /** The test `t['tag_sets_id'] == tag_sets_id`, which raises on a tag that is
      not a dict holding that key. */
  function TagSetTest(t: Json, tagSetsId: int): (r: Py<bool>)
    ensures r.Success? <==> t.JObj? && HasKey(t.fields, "tag_sets_id")
    ensures r.Success? ==> (r.value <==> InTagSet(t, tagSetsId))
  {
    var v :- Index(t, "tag_sets_id");
    Success(PyEq(v, JInt(tagSetsId)))
  }

  /** The list comprehension `[t for t in tags if t['tag_sets_id'] == tag_sets_id]`:
      an order-preserving filter that raises at the first tag it cannot test. */
  function FilterTagSet(tags: seq<Json>, tagSetsId: int): (r: Py<seq<Json>>)
    ensures r.Success? <==> forall i :: 0 <= i < |tags| ==> TagSetTest(tags[i], tagSetsId).Success?
    ensures r.Failure? ==> exists i :: 0 <= i < |tags| && TagSetTest(tags[i], tagSetsId) == Failure(r.error)
                                       && forall j :: 0 <= j < i ==> TagSetTest(tags[j], tagSetsId).Success?
    ensures r.Success? ==> |r.value| <= |tags|
    ensures r.Success? ==> forall x :: x in r.value ==> x in tags && InTagSet(x, tagSetsId)
    ensures r.Success? ==> forall i :: 0 <= i < |tags| && InTagSet(tags[i], tagSetsId) ==> tags[i] in r.value
  {
    if tags == [] then Success([])
    else
      var keep :- TagSetTest(tags[0], tagSetsId);
      var rest :- FilterTagSet(tags[1..], tagSetsId);
      assert forall i :: 0 < i < |tags| ==> tags[i] == tags[1..][i - 1];
      Success(if keep then [tags[0]] + rest else rest)
  }

  /** The filter's first element is the earliest tag of the set, and it comes
      back empty exactly when no tag is in the set. */
  lemma {:induction false} FilterTagSetFirst(tags: seq<Json>, tagSetsId: int)
    requires FilterTagSet(tags, tagSetsId).Success?
    ensures var kept := FilterTagSet(tags, tagSetsId).value;
      (kept == [] <==> forall i :: 0 <= i < |tags| ==> !InTagSet(tags[i], tagSetsId))
      && (kept != [] ==> EarliestInSet(tags, tagSetsId, kept[0]))
  {
    if tags != [] {
      FilterTagSetFirst(tags[1..], tagSetsId);
      assert forall i :: 0 < i < |tags| ==> tags[i] == tags[1..][i - 1];
      var rest := FilterTagSet(tags[1..], tagSetsId).value;
      if !InTagSet(tags[0], tagSetsId) && rest != [] {
        var i :| 0 <= i < |tags[1..]| && tags[1..][i] == rest[0] && InTagSet(tags[1..][i], tagSetsId)
                 && forall j :: 0 <= j < i ==> !InTagSet(tags[1..][j], tagSetsId);
        assert tags[i + 1] == rest[0];
        forall j | 0 <= j < i + 1 ensures !InTagSet(tags[j], tagSetsId) {
          if j > 0 { assert tags[j] == tags[1..][j - 1]; }
        }
      }
    }
  }

  /** `t` is the first tag of `tags` in the given set. */
  predicate EarliestInSet(tags: seq<Json>, tagSetsId: int, t: Json) {
    exists i :: 0 <= i < |tags| && tags[i] == t && InTagSet(tags[i], tagSetsId)
                && forall j :: 0 <= j < i ==> !InTagSet(tags[j], tagSetsId)
  }

  /** `_tagsOnMedia` / `_tagsOnStory`: filter the item's tag list (under
      `listKey`) by tag set.  A missing list raises KeyError, a non-iterable one
      TypeError. */
  function TagsOn(item: Json, listKey: string, tagSetsId: int): (r: Py<seq<Json>>)
    ensures r.Success? ==> item.JObj? && HasKey(item.fields, listKey)
    ensures item.JObj? && !HasKey(item.fields, listKey) ==> r == Failure(KeyError(listKey))
    ensures item.JObj? && HasKey(item.fields, listKey) && Get(item.fields, listKey).value.JArr? ==>
      r == FilterTagSet(Get(item.fields, listKey).value.items, tagSetsId)
  {
    var list :- Index(item, listKey);
    var tags :- Iterate(list);
    FilterTagSet(tags, tagSetsId)
  }

  /** `_firstTagOnMedia` / `_firstTagOnStory`: the earliest tag of the set, or
      None when the item has none. */
  function FirstTagOn(item: Json, listKey: string, tagSetsId: int): (r: Py<Json>)
    ensures r.Success? <==> TagsOn(item, listKey, tagSetsId).Success?
  {
    match TagsOn(item, listKey, tagSetsId)
    case Failure(e) => Failure(e)
    case Success(tags) => Success(if |tags| > 0 then tags[0] else JNull)
  }

  /** The tag found is the earliest of the set in the item's list, and None is
      found exactly when no tag of the list is in the set. */
  lemma FirstTagOnIsEarliest(item: Json, listKey: string, tagSetsId: int)
    requires FirstTagOn(item, listKey, tagSetsId).Success?
    requires Get(item.fields, listKey).value.JArr?
    ensures var tags := Get(item.fields, listKey).value.items;
      var first := FirstTagOn(item, listKey, tagSetsId).value;
      (first == JNull <==> forall i :: 0 <= i < |tags| ==> !InTagSet(tags[i], tagSetsId))
      && (first != JNull ==> EarliestInSet(tags, tagSetsId, first))
  {
    var list := Get(item.fields, listKey).value.items;
    var kept := FilterTagSet(list, tagSetsId).value;
    assert TagsOn(item, listKey, tagSetsId) == FilterTagSet(list, tagSetsId);
    FilterTagSetFirst(list, tagSetsId);
    assert |kept| > 0 ==> kept[0] in kept && kept[0].JObj?;
  }

  /** The names of a metadata summary, in order. */
  function Names(sets: seq<(string, int)>): seq<string> {
    seq(|sets|, i requires 0 <= i < |sets| => sets[i].0)
  }

  /** The item's tag lookup succeeds for every named tag set. */
  predicate AllSetsReadable(item: Json, listKey: string, sets: seq<(string, int)>) {
    forall i :: 0 <= i < |sets| ==> FirstTagOn(item, listKey, sets[i].1).Success?
  }

  /** The `metadata` dict of one item: for each named tag set, in order, the
      first tag in it, or None. */
  function MetadataOf(item: Json, listKey: string, sets: seq<(string, int)>): (r: Py<Dict<Json>>)
    ensures r.Success? <==> AllSetsReadable(item, listKey, sets)
    ensures r.Success? ==> |r.value| == |sets|
    ensures r.Success? ==> forall i :: 0 <= i < |sets| ==>
      r.value[i] == (sets[i].0, FirstTagOn(item, listKey, sets[i].1).value)
    ensures r.Failure? ==> exists i :: 0 <= i < |sets| && FirstTagOn(item, listKey, sets[i].1) == Failure(r.error)
                                       && forall j :: 0 <= j < i ==> FirstTagOn(item, listKey, sets[j].1).Success?
  {
    var firsts := seq(|sets|, i requires 0 <= i < |sets| => FirstTagOn(item, listKey, sets[i].1));
    match AllOk(firsts)
    case Failure(e) => Failure(e)
    case Success(tags) => Success(seq(|sets|, i requires 0 <= i < |sets| => (sets[i].0, tags[i])))
  }


  /** `_addMetadataTagsToMediaList` / `_addMetadataTagsToStoryList`: set
      `metadata` on every item of the list, in place.  The list comes back with
      the same items in the same order, each keeping every other field. */
  function AddMetadataTags(list: Json, listKey: string, sets: seq<(string, int)>): (r: Py<Json>)
    ensures list.JArr? ==> (r.Success? <==> forall i :: 0 <= i < |list.items| ==> Taggable(list.items[i], listKey, sets))
    ensures list.JArr? && r.Success? ==> r.value.JArr? && |r.value.items| == |list.items|
    ensures list.JArr? && r.Success? ==> forall i :: 0 <= i < |list.items| ==>
      r.value.items[i].JObj?
      && Get(r.value.items[i].fields, "metadata") == Some(JObj(MetadataOf(list.items[i], listKey, sets).value))
      && forall k :: k != "metadata" ==> Get(r.value.items[i].fields, k) == Get(list.items[i].fields, k)
    ensures !list.JArr? && r.Success? ==> r.value == list
    ensures list.JArr? && r.Failure? ==>
      exists i :: 0 <= i < |list.items| && AddMetadata(list.items[i], listKey, sets) == Failure(r.error)
                  && forall j :: 0 <= j < i ==> Taggable(list.items[j], listKey, sets)
    ensures (list.JNull? || list.JBool? || list.JInt?) ==> r == Failure(TypeError)
  {
    var items :- Iterate(list);
    var tagged :- AddMetadataEach(items, listKey, sets);
    Success(if list.JArr? then JArr(tagged) else list)
  }

  /** An item that can carry a summary: a dict whose tags can be read. */
  predicate Taggable(item: Json, listKey: string, sets: seq<(string, int)>) {
    item.JObj? && AllSetsReadable(item, listKey, sets)
  }

  /** One item of the loop: compute its summary, then store it under
      `metadata`, which raises TypeError on an item that is not a dict. */
  function AddMetadata(item: Json, listKey: string, sets: seq<(string, int)>): (r: Py<Json>)
    ensures r.Success? <==> Taggable(item, listKey, sets)
    ensures r.Success? ==>
      r.value.JObj?
      && Get(r.value.fields, "metadata") == Some(JObj(MetadataOf(item, listKey, sets).value))
      && forall k :: k != "metadata" ==> Get(r.value.fields, k) == Get(item.fields, k)
    ensures MetadataOf(item, listKey, sets).Failure? ==> r == Failure(MetadataOf(item, listKey, sets).error)
    ensures MetadataOf(item, listKey, sets).Success? && !item.JObj? ==> r == Failure(TypeError)
  {
    match MetadataOf(item, listKey, sets)
    case Failure(e) => Failure(e)
    case Success(metadata) =>
      if !item.JObj? then Failure(TypeError)
      else Success(JObj(Set(item.fields, "metadata", JObj(metadata))))
  }

  function AddMetadataEach(items: seq<Json>, listKey: string, sets: seq<(string, int)>): (r: Py<seq<Json>>)
    ensures r.Success? <==> forall i :: 0 <= i < |items| ==> Taggable(items[i], listKey, sets)
    ensures r.Success? ==> |r.value| == |items|
    ensures r.Success? ==> forall i :: 0 <= i < |items| ==> r.value[i] == AddMetadata(items[i], listKey, sets).value
    ensures r.Failure? ==> exists i :: 0 <= i < |items| && AddMetadata(items[i], listKey, sets) == Failure(r.error)
                                       && forall j :: 0 <= j < i ==> Taggable(items[j], listKey, sets)
  {
    var steps := seq(|items|, i requires 0 <= i < |items| => AddMetadata(items[i], listKey, sets));
    assert forall i :: 0 <= i < |items| ==> steps[i] == AddMetadata(items[i], listKey, sets);
    AllOk(steps)
  }
}

=== FILE: params.dfy ===
/** The parameter helpers both client versions share: `_validate_params`,
    `_validate_bool_params`, the allow-list validators, `_remove_private_info`
    and `_chunkify`.  Each helper mutates or raises in Python; here each returns
    the dict it would leave behind, or the exception it raises. */
module Arguments {
  import opened Wrappers
  import opened Dicts
  import opened PyValues

  /** The message `_validate_params` raises for a key outside the allow-list. */
  function InvalidArgumentMessage(key: string): string {
    key + " is not a valid argument for this api method"
  }

  /** `_validate_params(params, valid_params, args)`: copy every keyword argument
      into `params`, in order, raising ValueError at the first key that is not
      allowed. */
  function ValidateParams(params: Dict<Json>, valid: seq<string>, args: Dict<Json>): (r: Py<Dict<Json>>)
    ensures r.Failure? <==> exists i :: 0 <= i < |args| && args[i].0 !in valid
    ensures r.Failure? ==> r.error.ValueError?
    ensures r.Success? ==> forall k :: !HasKey(args, k) ==> Get(r.value, k) == Get(params, k)
    ensures r.Success? ==> forall k :: HasKey(args, k) ==> HasKey(r.value, k)
    ensures r.Success? && UniqueKeys(args) ==> forall k :: HasKey(args, k) ==> Get(r.value, k) == Get(args, k)
    decreases |args|
  {
    if args == [] then Success(params)
    else if args[0].0 !in valid then Failure(ValueError(InvalidArgumentMessage(args[0].0)))
    else
      var r := ValidateParams(Set(params, args[0].0, args[0].1), valid, args[1..]);
      assert (exists i :: 0 <= i < |args| && args[i].0 !in valid)
         <==> (exists i :: 0 <= i < |args[1..]| && args[1..][i].0 !in valid) by {
        if exists i :: 0 <= i < |args| && args[i].0 !in valid {
          var i :| 0 <= i < |args| && args[i].0 !in valid;
          assert args[1..][i - 1] == args[i];
        }
      }
      assert forall k :: HasKey(args, k) <==> k == args[0].0 || HasKey(args[1..], k);
      assert UniqueKeys(args) ==> UniqueKeys(args[1..]) && !HasKey(args[1..], args[0].0);
      r
  }

  /** An argument given once is copied with its value. */
  lemma ValidateParamsTakes(params: Dict<Json>, valid: seq<string>, args: Dict<Json>, k: string)
    requires ValidateParams(params, valid, args).Success? && UniqueKeys(args) && HasKey(args, k)
    ensures Get(ValidateParams(params, valid, args).value, k) == Get(args, k)
  {
  }

  /** The error names the first argument that is not allowed. */
  lemma {:induction false} ValidateParamsNamesFirstInvalid(params: Dict<Json>, valid: seq<string>, args: Dict<Json>)
    requires ValidateParams(params, valid, args).Failure?
    ensures exists i :: 0 <= i < |args| && args[i].0 !in valid
                        && ValidateParams(params, valid, args).error == ValueError(InvalidArgumentMessage(args[i].0))
                        && forall j :: 0 <= j < i ==> args[j].0 in valid
    decreases |args|
  {
    if args[0].0 in valid {
      var rest := ValidateParams(Set(params, args[0].0, args[0].1), valid, args[1..]);
      ValidateParamsNamesFirstInvalid(Set(params, args[0].0, args[0].1), valid, args[1..]);
      var i :| 0 <= i < |args[1..]| && args[1..][i].0 !in valid
               && rest.error == ValueError(InvalidArgumentMessage(args[1..][i].0))
               && forall j :: 0 <= j < i ==> args[1..][j].0 in valid;
      assert args[i + 1] == args[1..][i];
      forall j | 0 <= j < i + 1 ensures args[j].0 in valid {
        if j > 0 { assert args[j] == args[1..][j - 1]; }
      }
    }
  }

  /** The values `_validate_bool_params` accepts: `x in [True, False]` uses `==`,
      so besides the two booleans the integers 1 and 0 pass as well. */
  predicate BoolLike(v: Json) {
    PyIn(v, [JBool(true), JBool(false)])
  }

  lemma BoolLikeExactly(v: Json)
    ensures BoolLike(v) <==> v.JBool? || v == JInt(0) || v == JInt(1)
  {
    if v.JBool? || v == JInt(0) || v == JInt(1) {
      if v == JBool(true) || v == JInt(1) { assert PyEq(v, [JBool(true), JBool(false)][0]); }
      else { assert PyEq(v, [JBool(true), JBool(false)][1]); }
    }
  }

  /** What `_validate_bool_params` stores for an accepted value:
      `1 if value is True else 0`.  `is True` holds only for the boolean True,
      so the integer 1 is stored as 0. */
  function BoolWire(v: Json): Json {
    JInt(if v == JBool(true) then 1 else 0)
  }

  function NotBooleanMessage(name: string): string {
    name + " must be a python boolean (True or False)"
  }

  /** `_validate_bool_params(params, *names)`: for each listed name present in
      `params`, raise ValueError unless its value is boolean-like, then replace
      it by 1 or 0. */
  function ValidateBoolParams(params: Dict<Json>, names: seq<string>): (r: Py<Dict<Json>>)
    ensures r.Success? ==> Keys(r.value) == Keys(params)
    ensures r.Success? ==> forall k :: k !in names ==> Get(r.value, k) == Get(params, k)
    ensures r.Success? ==> forall k :: k in names && HasKey(params, k) ==> Get(r.value, k) in {Some(JInt(0)), Some(JInt(1))}
    ensures r.Failure? <==> exists i :: 0 <= i < |names| && HasKey(params, names[i]) && !BoolLike(Get(params, names[i]).value)
    ensures r.Failure? ==> exists i :: 0 <= i < |names| && NotBoolLike(params, names[i])
                                       && r.error == ValueError(NotBooleanMessage(names[i]))
                                       && forall j :: 0 <= j < i ==> !NotBoolLike(params, names[j])
    decreases |names|
  {
    if names == [] then Success(params)
    else
      var n := names[0];
      match Get(params, n)
      case None =>
        var r := ValidateBoolParams(params, names[1..]);
        BoolParamsFailureShift(params, params, names);
        BoolParamsFirstShift(params, params, names, r);
        r
      case Some(v) =>
        if !BoolLike(v) then Failure(ValueError(NotBooleanMessage(n)))
        else
          var next := Set(params, n, BoolWire(v));
          BoolLikeExactly(BoolWire(v));
          var r := ValidateBoolParams(next, names[1..]);
          BoolParamsFailureShift(params, next, names);
          BoolParamsFirstShift(params, next, names, r);
          r
  }

  /** A listed parameter that is present and that `_validate_bool_params`
      refuses. */
  predicate NotBoolLike(params: Dict<Json>, k: string) {
    HasKey(params, k) && !BoolLike(Get(params, k).value)
  }

  /** The first refused name among `names[1..]` after converting `names[0]` is
      the first refused name among `names` before. */
  lemma BoolParamsFirstShift(params: Dict<Json>, next: Dict<Json>, names: seq<string>, r: Py<Dict<Json>>)
    requires |names| > 0
    requires forall k :: k != names[0] ==> Get(next, k) == Get(params, k)
    requires HasKey(next, names[0]) <==> HasKey(params, names[0])
    requires HasKey(params, names[0]) ==> BoolLike(Get(params, names[0]).value) && BoolLike(Get(next, names[0]).value)
    requires r.Failure? ==> exists i :: 0 <= i < |names[1..]| && NotBoolLike(next, names[1..][i])
                                        && r.error == ValueError(NotBooleanMessage(names[1..][i]))
                                        && forall j :: 0 <= j < i ==> !NotBoolLike(next, names[1..][j])
    ensures r.Failure? ==> exists i :: 0 <= i < |names| && NotBoolLike(params, names[i])
                                       && r.error == ValueError(NotBooleanMessage(names[i]))
                                       && forall j :: 0 <= j < i ==> !NotBoolLike(params, names[j])
  {
    if r.Success? { return; }
    var i :| 0 <= i < |names[1..]| && NotBoolLike(next, names[1..][i])
             && r.error == ValueError(NotBooleanMessage(names[1..][i]))
             && forall j :: 0 <= j < i ==> !NotBoolLike(next, names[1..][j]);
    assert names[i + 1] == names[1..][i];
    forall j | 0 <= j < i + 1 ensures !NotBoolLike(params, names[j]) {
      if j > 0 { assert names[j] == names[1..][j - 1]; }
    }
  }

  /** Converting `names[0]` (or finding it absent) does not change which of the
      remaining names hold a non-boolean value. */
  lemma BoolParamsFailureShift(params: Dict<Json>, next: Dict<Json>, names: seq<string>)
    requires |names| > 0
    requires forall k :: k != names[0] ==> Get(next, k) == Get(params, k)
    requires HasKey(next, names[0]) <==> HasKey(params, names[0])
    requires HasKey(params, names[0]) ==> BoolLike(Get(params, names[0]).value) && BoolLike(Get(next, names[0]).value)
    ensures (exists i :: 0 <= i < |names| && HasKey(params, names[i]) && !BoolLike(Get(params, names[i]).value))
        <==> (exists i :: 0 <= i < |names[1..]| && HasKey(next, names[1..][i]) && !BoolLike(Get(next, names[1..][i]).value))
  {
    if exists i :: 0 <= i < |names| && HasKey(params, names[i]) && !BoolLike(Get(params, names[i]).value) {
      var i :| 0 <= i < |names| && HasKey(params, names[i]) && !BoolLike(Get(params, names[i]).value);
      assert names[1..][i - 1] == names[i];
    }
    if exists i :: 0 <= i < |names[1..]| && HasKey(next, names[1..][i]) && !BoolLike(Get(next, names[1..][i]).value) {
      var i :| 0 <= i < |names[1..]| && HasKey(next, names[1..][i]) && !BoolLike(Get(next, names[1..][i]).value);
      assert names[i + 1] == names[1..][i];
    }
  }

  predicate Distinct(names: seq<string>) {
    forall i, j :: 0 <= i < j < |names| ==> names[i] != names[j]
  }

  /** With every name listed once, each present listed name ends up holding
      exactly `1 if value is True else 0` of its original value. */
  lemma {:induction false} BoolParamsConvert(params: Dict<Json>, names: seq<string>, k: string)
    requires Distinct(names) && k in names && HasKey(params, k)
    requires ValidateBoolParams(params, names).Success?
    ensures Get(ValidateBoolParams(params, names).value, k) == Some(BoolWire(Get(params, k).value))
    decreases |names|
  {
    var n := names[0];
    var rest := names[1..];
    assert Distinct(rest) by {
      forall i, j | 0 <= i < j < |rest| ensures rest[i] != rest[j] {
        assert rest[i] == names[i + 1] && rest[j] == names[j + 1];
      }
    }
    match Get(params, n)
    case None =>
      assert k != n;
      assert k in rest;
      BoolParamsConvert(params, rest, k);
    case Some(v) =>
      var next := Set(params, n, BoolWire(v));
      if k == n {
        assert k !in rest by {
          forall i | 0 <= i < |rest| ensures rest[i] != k { assert rest[i] == names[i + 1]; }
        }
      } else {
        assert k in rest;
        BoolParamsConvert(next, rest, k);
      }
  }

  /** The integer 1 passes the boolean check (1 == True) and is then sent as 0. */
  lemma BoolParamsIntegerOneSentAsZero()
    ensures ValidateBoolParams([("split", JInt(1))], ["split"]) == Success([("split", JInt(0))])
  {
    var d := [("split", JInt(1))];
    assert Get(d, "split") == Some(JInt(1));
    assert BoolLike(JInt(1)) by { BoolLikeExactly(JInt(1)); }
    assert Set(d, "split", BoolWire(JInt(1))) == [("split", JInt(0))];
  }

  /** Naming a parameter twice converts it twice: True becomes 1, and 1 becomes 0. */
  lemma BoolParamsNamedTwice()
    ensures ValidateBoolParams([("split", JBool(true))], ["split", "split"]) == Success([("split", JInt(0))])
  {
    var d := [("split", JBool(true))];
    var d1 := [("split", JInt(1))];
    assert Get(d, "split") == Some(JBool(true));
    assert BoolLike(JBool(true)) by { BoolLikeExactly(JBool(true)); }
    assert Set(d, "split", BoolWire(JBool(true))) == d1;
    assert ["split", "split"][1..] == ["split"];
    BoolParamsIntegerOneSentAsZero();
  }

  /** An allow-list validator: raises ValueError with `message` unless `v` is
      `==` to one of `allowed`, and otherwise hands `v` back unchanged. */
  function ValidateChoice(v: Json, allowed: seq<Json>, message: string): (r: Py<Json>)
    ensures r.Success? <==> exists i :: 0 <= i < |allowed| && PyEq(v, allowed[i])
    ensures r.Success? ==> r.value == v
    ensures r.Failure? ==> r.error == ValueError(message)
  {
    if PyIn(v, allowed) then Success(v) else Failure(ValueError(message))
  }

  /** For an allow-list of strings, membership is plain string equality. */
  lemma {:induction false} ChoiceAmongStrings(v: Json, allowed: seq<string>, message: string)
    ensures ValidateChoice(v, Strs(allowed), message).Success? <==> v.JStr? && v.s in allowed
  {
    var js := Strs(allowed);
    if v.JStr? && v.s in allowed {
      var i :| 0 <= i < |allowed| && allowed[i] == v.s;
      assert PyEq(v, js[i]);
    }
  }

  /** An allow-list of strings, optionally with `None` in front: a value passes
      exactly when it is `None` (if allowed) or one of the strings. */
  function ValidateStringChoice(v: Json, allowNone: bool, allowed: seq<string>, message: string): (r: Py<Json>)
    ensures r.Success? <==> (allowNone && v == JNull) || (v.JStr? && v.s in allowed)
    ensures r.Success? ==> r.value == v
    ensures r.Failure? ==> r.error == ValueError(message)
  {
    var choices := (if allowNone then [JNull] else []) + Strs(allowed);
    ChoiceAmongStrings(v, allowed, message);
    assert PyIn(v, choices) <==> (allowNone && v == JNull) || PyIn(v, Strs(allowed)) by {
      if allowNone {
        assert choices[0] == JNull;
        assert forall i :: 1 <= i < |choices| ==> choices[i] == Strs(allowed)[i - 1];
        if PyIn(v, Strs(allowed)) {
          var i :| 0 <= i < |Strs(allowed)| && PyEq(v, Strs(allowed)[i]);
          assert PyEq(v, choices[i + 1]);
        }
        if v == JNull { assert PyEq(v, choices[0]); }
      } else {
        assert choices == Strs(allowed);
      }
    }
    ValidateChoice(v, choices, message)
  }

  const SortOrders: seq<string> := ["social", "inlink"]

  /** `_validate_sort_param`, the same in both clients. */
  function ValidateSort(order: Json): (r: Py<Json>)
    ensures r.Success? <==> order == JNull || (order.JStr? && order.s in SortOrders)
    ensures r.Failure? ==> r.error == ValueError("Sort must be either social or inlink")
  {
    ValidateStringChoice(order, true, SortOrders, "Sort must be either social or inlink")
  }

  const Permissions: seq<string> := ["none", "read", "write", "admin"]

  /** `_validate_permission_param`, the same in both clients: None is not among
      the permissions. */
  function ValidatePermission(permission: Json): (r: Py<Json>)
    ensures r.Success? <==> permission.JStr? && permission.s in Permissions
    ensures r.Failure? ==> r.error == ValueError("Permission must be none, read, write or admin")
  {
    ValidateStringChoice(permission, false, Permissions, "Permission must be none, read, write or admin")
  }

  /** The strings of an allow-list as Python values. */
  function Strs(ss: seq<string>): (r: seq<Json>)
    ensures |r| == |ss| && forall i :: 0 <= i < |ss| ==> r[i] == JStr(ss[i])
  {
    seq(|ss|, i requires 0 <= i < |ss| => JStr(ss[i]))
  }

  /** The keys `_remove_private_info` strips. */
  const PrivateKeys: set<string> := {"password", "key"}

  /** `_remove_private_info`: None stays None, a dict loses its 'password' and
      'key' entries, anything else (no `.items()`) comes back unchanged. */
  function RemovePrivateInfo(v: Json): (r: Json)
    ensures v == JNull ==> r == JNull
    ensures v.JObj? ==> r.JObj? && forall k :: Get(r.fields, k) == if k in PrivateKeys then None else Get(v.fields, k)
    ensures !v.JObj? ==> r == v
  {
    match v
    case JObj(fields) => JObj(RemoveKeys(fields, PrivateKeys))
    case _ => v
  }

  lemma RemovePrivateInfoIdempotent(v: Json)
    ensures RemovePrivateInfo(RemovePrivateInfo(v)) == RemovePrivateInfo(v)
  {
    if v.JObj? {
      RemoveKeysIdempotent(v.fields, PrivateKeys);
    }
  }

  lemma {:induction false} RemoveKeysIdempotent<V>(d: Dict<V>, ks: set<string>)
    ensures RemoveKeys(RemoveKeys(d, ks), ks) == RemoveKeys(d, ks)
  {
    if d != [] {
      RemoveKeysIdempotent(d[1..], ks);
      if d[0].0 !in ks {
        assert RemoveKeys(d, ks) == [d[0]] + RemoveKeys(d[1..], ks);
        assert RemoveKeys(d, ks)[1..] == RemoveKeys(d[1..], ks);
      }
    }
  }

  /** The concatenation of a list of chunks. */
  function Flatten<T>(chunks: seq<seq<T>>): seq<T> {
    if chunks == [] then [] else Flatten(chunks[..|chunks| - 1]) + chunks[|chunks| - 1]
  }

  /** `_chunkify(data, chunk_size)`: `data[x:x+chunk_size]` for x in
      `range(0, len(data), chunk_size)`.  A zero step makes `range` raise; a
      negative step gives an empty range and so no chunks. */
  method Chunkify<T>(data: seq<T>, chunkSize: int) returns (r: Py<seq<seq<T>>>)
    ensures r.Failure? <==> chunkSize == 0
    ensures chunkSize < 0 ==> r == Success([])
    ensures chunkSize > 0 ==> r.Success? && Flatten(r.value) == data
    ensures chunkSize > 0 ==> |r.value| == (|data| + chunkSize - 1) / chunkSize
    ensures chunkSize > 0 ==> forall i :: 0 <= i < |r.value| - 1 ==> |r.value[i]| == chunkSize
    ensures chunkSize > 0 && |r.value| > 0 ==> 0 < |r.value[|r.value| - 1]| <= chunkSize
    ensures chunkSize > 0 && |r.value| > 0 ==> |r.value[|r.value| - 1]| == |data| - (|r.value| - 1) * chunkSize
  {
    if chunkSize == 0 {
      return Failure(ValueError("range() arg 3 must not be zero"));
    }
    if chunkSize < 0 {
      return Success([]);
    }
    var chunks: seq<seq<T>> := [];
    var x := 0;
    while x < |data|
      invariant x == |chunks| * chunkSize
      invariant x <= |data| ==> Flatten(chunks) == data[..x]
      invariant x > |data| ==> Flatten(chunks) == data && x < |data| + chunkSize
      invariant forall i :: 0 <= i < |chunks| - 1 ==> |chunks[i]| == chunkSize
      invariant |chunks| > 0 ==> |chunks[|chunks| - 1]| == (if x <= |data| then x else |data|) - x + chunkSize
      decreases |data| - x
    {
      var end := if x + chunkSize <= |data| then x + chunkSize else |data|;
      assert Flatten(chunks + [data[x..end]]) == Flatten(chunks) + data[x..end] by {
        assert (chunks + [data[x..end]])[..|chunks|] == chunks;
      }
      assert data[..x] + data[x..end] == data[..end];
      assert (|chunks| + 1) * chunkSize == |chunks| * chunkSize + chunkSize;
      chunks := chunks + [data[x..end]];
      x := x + chunkSize;
    }
    if x <= |data| {
      assert data[..x] == data;
    }
    if |chunks| > 0 {
      assert (|chunks| - 1) * chunkSize == x - chunkSize;
    }
    CeilingDivision(|data|, chunkSize, |chunks|);
    return Success(chunks);
  }

  /** The example the client's own test pins: 507 items in chunks of 50 give
      eleven chunks, ten of 50 and a last one of 7. */
  method ChunkifyFiveHundredSeven() returns (r: Py<seq<seq<int>>>)
    ensures r.Success? && |r.value| == 11
    ensures forall i :: 0 <= i < 10 ==> |r.value[i]| == 50
    ensures |r.value[10]| == 7
  {
    var data := seq(507, i => i);
    r := Chunkify(data, 50);
  }

  /** `k` chunks of size `n` cover `len` items, and `k - 1` of them do not. */
  lemma CeilingDivision(len: nat, n: int, k: nat)
    requires n > 0
    requires k * n >= len
    requires k == 0 || (k - 1) * n < len
    ensures k == (len + n - 1) / n
  {
    var q := (len + n - 1) / n;
    var rem := (len + n - 1) % n;
    assert len + n - 1 == q * n + rem && 0 <= rem < n;
    assert (k + 1) * n == k * n + n;
    if q > k {
      MulMonotone(k + 1, q, n);
    } else if q < k {
      assert (k - 1) * n == k * n - n;
      MulMonotone(q + 1, k, n);
    }
  }

  lemma MulMonotone(a: int, b: int, n: int)
    requires a <= b && n > 0
    ensures a * n <= b * n
  {
    assert b * n - a * n == (b - a) * n;
  }

  /** A dict whose keys all come from an allow-list has no other key. */
  lemma {:induction false} KeysFromAllowList(d: Dict<Json>, allowed: seq<string>, k: string)
    requires forall i :: 0 <= i < |d| ==> d[i].0 in allowed
    requires k !in allowed
    ensures !HasKey(d, k)
  {
    if d != [] {
      KeysFromAllowList(d[1..], allowed, k);
    }
  }

  /** The part of `topicCreate` both client versions share: the required fields
      in order, and the optional keyword arguments it allows. */
  const TopicCreateOptional: seq<string> := ["max_iterations", "is_public", "ch_monitor_id", "twitter_topics_id",
                                            "is_logogram", "max_stories"]
  const NoMediaMessage: string := "You have to specify media_ids or media_tags_ids"

  function TopicCreateBase(name: Json, solrSeedQuery: Json, description: Json, startDate: Json, endDate: Json,
                           mediaIds: Json, mediaTagsIds: Json): Dict<Json> {
    [("name", name), ("solr_seed_query", solrSeedQuery), ("description", description),
     ("start_date", startDate), ("end_date", endDate), ("media_ids", mediaIds), ("media_tags_ids", mediaTagsIds)]
  }

  /** The allowed keyword arguments cannot override a required field. */
  lemma TopicCreateBaseLookups(base: Dict<Json>, kwargs: Dict<Json>, params: Dict<Json>)
    requires |base| == 7 && base[0].0 == "name" && base[5].0 == "media_ids" && base[6].0 == "media_tags_ids"
    requires base[1].0 == "solr_seed_query" && base[2].0 == "description" && base[3].0 == "start_date"
             && base[4].0 == "end_date"
    requires forall i :: 0 <= i < |kwargs| ==> kwargs[i].0 in TopicCreateOptional
    requires forall k :: !HasKey(kwargs, k) ==> Get(params, k) == Get(base, k)
    ensures Get(params, "name") == Some(base[0].1)
    ensures Get(params, "media_ids") == Some(base[5].1)
    ensures Get(params, "media_tags_ids") == Some(base[6].1)
    ensures Get(params, "solr_seed_query") == Some(base[1].1) && Get(params, "description") == Some(base[2].1)
    ensures Get(params, "start_date") == Some(base[3].1) && Get(params, "end_date") == Some(base[4].1)
  {
    forall k | k in ["name", "solr_seed_query", "description", "start_date", "end_date", "media_ids",
                     "media_tags_ids"] ensures !HasKey(kwargs, k) {
      KeysFromAllowList(kwargs, TopicCreateOptional, k);
    }
    GetPast(base, 1, "solr_seed_query");
    GetPast(base, 2, "description");
    GetPast(base, 3, "start_date");
    GetPast(base, 4, "end_date");
    GetPast(base, 5, "media_ids");
    GetPast(base, 6, "media_tags_ids");
  }
}

=== FILE: solr_dates.dfy ===
/** Solr date-range query clauses.

    A calendar date is rendered as the UTC midnight timestamp
    `YYYY-MM-DDT00:00:00Z` (Python's `datetime.combine(d, time.min).isoformat()`
    followed by `Z`), and a range as `[a TO b]`, where the opening bracket is `[`
    for an inclusive start and `{` for an exclusive one and the closing bracket
    is `]` or `}` likewise.  Each rendering here comes with the parser that
    inverts it, and the round trips are proved. */
module SolrDates {
  import opened Wrappers
  import opened PyValues

  datatype Date = Date(year: int, month: int, day: int)

  predicate IsLeapYear(y: int) {
    y % 4 == 0 && (y % 100 != 0 || y % 400 == 0)
  }

  function DaysInMonth(y: int, m: int): int
    requires 1 <= m <= 12
  {
    if m == 2 then (if IsLeapYear(y) then 29 else 28)
    else if m == 4 || m == 6 || m == 9 || m == 11 then 30
    else 31
  }

  /** The dates Python's `datetime.date` can hold (years 1 to 9999). */
  predicate ValidDate(d: Date) {
    1 <= d.year <= 9999 && 1 <= d.month <= 12 && 1 <= d.day <= DaysInMonth(d.year, d.month)
  }

  type CalendarDate = d: Date | ValidDate(d) witness Date(1, 1, 1)

  function Pow10(w: nat): nat {
    if w == 0 then 1 else 10 * Pow10(w - 1)
  }

  predicate AllDigits(s: string) {
    forall i :: 0 <= i < |s| ==> '0' <= s[i] <= '9'
  }

  /** `n` zero-padded to exactly `w` decimal digits (Python's `%0wd` when `n` fits). */
  function Pad(n: nat, w: nat): (r: string)
    ensures |r| == w
    ensures AllDigits(r)
  {
    if w == 0 then "" else Pad(n / 10, w - 1) + [DigitChar(n % 10)]
  }

  /** The number a string of decimal digits spells. */
  function DigitsValue(s: string): nat
    requires AllDigits(s)
  {
    if s == [] then 0 else DigitsValue(s[..|s| - 1]) * 10 + (s[|s| - 1] as int - 48)
  }

  lemma {:induction false} PadRoundTrip(n: nat, w: nat)
    requires n < Pow10(w)
    ensures DigitsValue(Pad(n, w)) == n
  {
    if w > 0 {
      PadRoundTrip(n / 10, w - 1);
      var p := Pad(n, w);
      assert p[..|p| - 1] == Pad(n / 10, w - 1);
    }
  }

  /** `_zi_time(d)`: the UTC-midnight timestamp of a date. */
  function ZiTime(d: CalendarDate): (r: string)
    ensures |r| == 20
    ensures AllDigits(r[..4]) && r[4] == '-' && AllDigits(r[5..7]) && r[7] == '-' && AllDigits(r[8..10])
    ensures r[10..] == "T00:00:00Z"
  {
    Pad(d.year, 4) + "-" + Pad(d.month, 2) + "-" + Pad(d.day, 2) + "T00:00:00Z"
  }

  /** The timestamp reads back as the date it was made from. */
  lemma ZiTimeRoundTrip(d: CalendarDate)
    ensures ParseZiTime(ZiTime(d)) == Some(d)
  {
    var r := ZiTime(d);
    assert r[0..4] == Pad(d.year, 4);
    assert r[5..7] == Pad(d.month, 2);
    assert r[8..10] == Pad(d.day, 2);
    assert r[10..] == "T00:00:00Z";
    PadRoundTrip(d.year, 4);
    PadRoundTrip(d.month, 2);
    PadRoundTrip(d.day, 2);
  }

  /** A day of June 2014 (the month the client's tests use), rendered. */
  lemma ZiTimeJune2014Day(d: CalendarDate)
    requires d.year == 2014 && d.month == 6 && d.day <= 9
    ensures ZiTime(d) == "2014-06-0" + [DigitChar(d.day)] + "T00:00:00Z"
  {
    PadYear2014();
    PadTwoDigits(6);
    PadTwoDigits(d.day);
    JuneConcat(ZiTime(d), Pad(d.year, 4), Pad(d.month, 2), Pad(d.day, 2), DigitChar(d.day));
  }

  lemma JuneConcat(z: string, y: string, m: string, d: string, c: char)
    requires z == y + "-" + m + "-" + d + "T00:00:00Z"
    requires y == "2014" && m == ['0', DigitChar(6)] && d == ['0', c]
    ensures z == "2014-06-0" + [c] + "T00:00:00Z"
  {
    assert DigitChar(6) == '6';
  }

  lemma PadYear2014()
    ensures Pad(2014, 4) == "2014"
  {
    assert Pad(0, 0) == "";
    assert Pad(2, 1) == "2";
    assert Pad(20, 2) == "20";
    assert Pad(201, 3) == "201";
  }

  lemma PadTwoDigits(n: nat)
    requires n < 10
    ensures Pad(n, 2) == ['0', DigitChar(n)]
  {
    assert n / 10 == 0 && n % 10 == n;
    assert Pad(0, 0) == "";
    assert Pad(0, 1) == Pad(0, 0) + [DigitChar(0)];
    assert Pad(n, 2) == Pad(0, 1) + [DigitChar(n)];
  }

  /** Reads back a `YYYY-MM-DDT00:00:00Z` timestamp naming a valid date. */
  function ParseZiTime(s: string): Option<CalendarDate> {
    if |s| == 20 && AllDigits(s[0..4]) && s[4] == '-' && AllDigits(s[5..7]) && s[7] == '-'
       && AllDigits(s[8..10]) && s[10..] == "T00:00:00Z"
    then
      var d := Date(DigitsValue(s[0..4]), DigitsValue(s[5..7]), DigitsValue(s[8..10]));
      if ValidDate(d) then Some(d) else None
    else None
  }

  /** A date range with its two inclusivity flags: what a range string encodes. */
  datatype DateRange = DateRange(start: CalendarDate, end: CalendarDate, startInclusive: bool, endInclusive: bool)

  /** `_solr_date_range` with every argument explicit.  The start is not required
      to precede the end: the client never compares them. */
  function SolrDateRange(start: CalendarDate, end: CalendarDate, startInclusive: bool, endInclusive: bool): (r: string)
    ensures |r| == 46
    ensures r[0] == (if startInclusive then '[' else '{')
    ensures r[1..21] == ZiTime(start) && r[21..25] == " TO " && r[25..45] == ZiTime(end)
    ensures r[45] == (if endInclusive then ']' else '}')
  {
    var r := [if startInclusive then '[' else '{'] + ZiTime(start) + " TO " + ZiTime(end)
             + [if endInclusive then ']' else '}'];
    RangeParts(r, if startInclusive then '[' else '{', ZiTime(start), ZiTime(end), if endInclusive then ']' else '}');
    r
  }

  /** Where the parts of a range string sit. */
  lemma RangeParts(r: string, open: char, a: string, b: string, close: char)
    requires |a| == 20 && |b| == 20 && r == [open] + a + " TO " + b + [close]
    ensures |r| == 46 && r[0] == open && r[45] == close
    ensures r[1..21] == a && r[21..25] == " TO " && r[25..45] == b
  {
    assert r[1..21] == a;
    assert r[21..25] == " TO ";
    assert r[25..45] == b;
  }

  /** A range string reads back as the two dates and flags it was made from. */
  lemma SolrDateRangeRoundTrip(start: CalendarDate, end: CalendarDate, startInclusive: bool, endInclusive: bool)
    ensures ParseSolrRange(SolrDateRange(start, end, startInclusive, endInclusive))
         == Some(DateRange(start, end, startInclusive, endInclusive))
  {
    ZiTimeRoundTrip(start);
    ZiTimeRoundTrip(end);
  }

  /** The range from 2 to 3 June 2014, the one the client's tests use. */
  lemma SolrDateRangeJune2014(start: CalendarDate, end: CalendarDate, startInclusive: bool, endInclusive: bool)
    requires start == Date(2014, 6, 2) && end == Date(2014, 6, 3)
    ensures SolrDateRange(start, end, startInclusive, endInclusive)
         == [if startInclusive then '[' else '{'] + "2014-06-02T00:00:00Z" + " TO " + "2014-06-03T00:00:00Z"
            + [if endInclusive then ']' else '}']
  {
    ZiTimeJune2014Day(start);
    ZiTimeJune2014Day(end);
    JuneRangeString(SolrDateRange(start, end, startInclusive, endInclusive),
                    if startInclusive then '[' else '{', ZiTime(start), ZiTime(end), if endInclusive then ']' else '}');
  }

  lemma JuneRangeString(r: string, open: char, a: string, b: string, close: char)
    requires r == [open] + a + " TO " + b + [close]
    requires a == "2014-06-0" + [DigitChar(2)] + "T00:00:00Z" && b == "2014-06-0" + [DigitChar(3)] + "T00:00:00Z"
    ensures r == [open] + "2014-06-02T00:00:00Z" + " TO " + "2014-06-03T00:00:00Z" + [close]
  {
    assert DigitChar(2) == '2' && DigitChar(3) == '3';
    assert a == "2014-06-02T00:00:00Z";
    assert b == "2014-06-03T00:00:00Z";
  }

  /** Reads back `[a TO b]`, `{a TO b}`, `[a TO b}` or `{a TO b]`. */
  function ParseSolrRange(r: string): Option<DateRange> {
    if |r| == 46 && r[0] in "[{" && r[21..25] == " TO " && r[45] in "]}" then
      match (ParseZiTime(r[1..21]), ParseZiTime(r[25..45]))
      case (Some(a), Some(b)) => Some(DateRange(a, b, r[0] == '[', r[45] == ']'))
      case _ => None
    else None
  }

  /** `field:range`, the query clause the date helpers return. */
  function FieldClause(field: string, range: DateRange): (q: string)
    ensures |q| == |field| + 47
    ensures q[..|field|] == field && q[|field|] == ':'
    ensures q[|field| + 1..] == SolrDateRange(range.start, range.end, range.startInclusive, range.endInclusive)
  {
    var r := SolrDateRange(range.start, range.end, range.startInclusive, range.endInclusive);
    var q := field + ":" + r;
    assert q[..|field|] == field;
    assert q[|field| + 1..] == r;
    q
  }

  /** A clause reads back as its field and its range, whatever the field. */
  lemma FieldClauseRoundTrip(field: string, range: DateRange)
    ensures ParseFieldClause(FieldClause(field, range)) == Some((field, range))
  {
    SolrDateRangeRoundTrip(range.start, range.end, range.startInclusive, range.endInclusive);
  }

  /** The clause for 2 to 3 June 2014 on any field. */
  lemma FieldClauseJune2014(field: string, start: CalendarDate, end: CalendarDate, startInclusive: bool, endInclusive: bool)
    requires start == Date(2014, 6, 2) && end == Date(2014, 6, 3)
    ensures FieldClause(field, DateRange(start, end, startInclusive, endInclusive))
         == field + ":" + [if startInclusive then '[' else '{'] + "2014-06-02T00:00:00Z" + " TO "
            + "2014-06-03T00:00:00Z" + [if endInclusive then ']' else '}']
  {
    SolrDateRangeJune2014(start, end, startInclusive, endInclusive);
    FieldClauseOfRange(field, DateRange(start, end, startInclusive, endInclusive),
                       if startInclusive then '[' else '{', "2014-06-02T00:00:00Z", " TO ", "2014-06-03T00:00:00Z",
                       if endInclusive then ']' else '}');
  }

  lemma FieldClauseOfRange(field: string, range: DateRange, open: char, a: string, m: string, b: string, close: char)
    requires SolrDateRange(range.start, range.end, range.startInclusive, range.endInclusive) == [open] + a + m + b + [close]
    ensures FieldClause(field, range) == field + ":" + [open] + a + m + b + [close]
  {
  }

  /** Splits `field:range` back into the field name and the range; the range is
      always the last 46 characters, so the field itself may contain anything. */
  function ParseFieldClause(q: string): Option<(string, DateRange)> {
    if |q| >= 47 && q[|q| - 47] == ':' then
      match ParseSolrRange(q[|q| - 46..])
      case Some(range) => Some((q[..|q| - 47], range))
      case None => None
    else None
  }
}

=== FILE: storage.dfy ===
/** `StoryDatabase`: the logic of `addStory` and `updateStory` over an abstract
    store.  The store holds story records and finds them by their `stories_id`
    field, as the one concrete adapter does; every record a call saves is built
    from a copy of the caller's story, so the caller's value is never changed
    (here that is immediate, since values are immutable). */
module Storage {
  import opened Wrappers
  import opened Dicts
  import opened PyValues

  type Record = Dict<Json>

  /** The stored records, by the value of their `stories_id` field. */
  datatype StoryDatabase = StoryDatabase(stories: map<Json, Record>)

  /** `storyExists(story_id)`. */
  predicate StoryExists(db: StoryDatabase, id: Json) {
    id in db.stories
  }

  /** `story['stories_id']`, which raises KeyError when the story has none. */
  function StoryId(story: Record): (r: Py<Json>)
    ensures r.Success? <==> HasKey(story, "stories_id")
    ensures r.Success? ==> Get(story, "stories_id") == Some(r.value)
    ensures r.Failure? ==> r.error == KeyError("stories_id")
  {
    Index(JObj(story), "stories_id")
  }

  /** The value of `k` after `story.update(extras)`, for an `extras` dict. */
  function Overlay(story: Record, extras: Record, k: string): Option<Json> {
    if HasKey(extras, k) then Get(extras, k) else Get(story, k)
  }

  /** The sentence count `len(story['story_sentences'])` can be taken. */
  predicate SentencesCountable(story: Record) {
    !HasKey(story, "story_sentences") || Len(Get(story, "story_sentences").value).Success?
  }

  /** The record both paths build: a copy of the story updated with the extra
      attributes, then `idKey` set to the story's id, then, when the story carries
      `story_sentences`, `story_sentences_count` set to their number. */
  function RecordToSave(story: Record, extras: Record, idKey: string, id: Json): (r: Py<Record>)
    requires idKey == "stories_id" || idKey == "_stories_id"
    ensures r.Success? <==> SentencesCountable(story)
    ensures r.Success? ==> Get(r.value, idKey) == Some(id)
    ensures r.Success? && HasKey(story, "story_sentences") ==>
      Get(r.value, "story_sentences_count") == Some(JInt(Len(Get(story, "story_sentences").value).value))
    ensures r.Success? && UniqueKeys(extras) ==> forall k ::
      k != idKey && !(k == "story_sentences_count" && HasKey(story, "story_sentences")) ==>
        Get(r.value, k) == Overlay(story, extras, k)
    ensures r.Success? ==> forall k :: HasKey(story, k) ==> HasKey(r.value, k)
  {
    var merged := Update(story, extras);
    forall k | UniqueKeys(extras) && HasKey(extras, k) ensures Get(merged, k) == Get(extras, k) {
      UpdateTakesNewValues(story, extras, k);
    }
    var withId := Set(merged, idKey, id);
    if HasKey(story, "story_sentences") then
      var n :- Len(Get(story, "story_sentences").value);
      Success(Set(withId, "story_sentences_count", JInt(n)))
    else Success(withId)
  }

  /** The key a saved record is found under: its own `stories_id`. */
  function StoredUnder(record: Record): Json
    requires HasKey(record, "stories_id")
  {
    Get(record, "stories_id").value
  }

  /** `addStory(story, extra_attributes)`: refuse (False, store unchanged) when a
      story with this id exists; otherwise save the merged record, tagged with
      `_stories_id`, and answer True. */
  function AddStory(db: StoryDatabase, story: Record, extras: Record): (r: Py<(bool, StoryDatabase)>)
    ensures !HasKey(story, "stories_id") ==> r == Failure(KeyError("stories_id"))
    ensures HasKey(story, "stories_id") && StoryExists(db, Get(story, "stories_id").value) ==> r == Success((false, db))
    ensures HasKey(story, "stories_id") && !StoryExists(db, Get(story, "stories_id").value) ==>
      (r.Success? <==> SentencesCountable(story))
      && (r.Success? ==> r.value.0)
    ensures r.Success? && r.value.0 ==>
      var record := RecordToSave(story, extras, "_stories_id", Get(story, "stories_id").value).value;
      HasKey(record, "stories_id") && r.value.1.stories == db.stories[StoredUnder(record) := record]
  {
    match StoryId(story)
    case Failure(e) => Failure(e)
    case Success(id) =>
      if StoryExists(db, id) then Success((false, db))
      else
        match RecordToSave(story, extras, "_stories_id", id)
        case Failure(e) => Failure(e)
        case Success(record) =>
          assert HasKey(record, "stories_id");
          Success((true, StoryDatabase(db.stories[StoredUnder(record) := record])))
  }

  /** What `updateStory` hands back: `addStory`'s answer for a new story, the
      saved record for a known one. */
  datatype UpdateOutcome = Added(saved: bool) | Updated(record: Record)

  /** `updateStory(story, extra_attributes)`: a new story is added exactly as
      `addStory` would; a known one is replaced by the merged record, whose
      `stories_id` is reset to the story's own id even if the extra attributes
      named another. */
  function UpdateStory(db: StoryDatabase, story: Record, extras: Record): (r: Py<(UpdateOutcome, StoryDatabase)>)
    ensures !HasKey(story, "stories_id") ==> r == Failure(KeyError("stories_id"))
    ensures HasKey(story, "stories_id") && !StoryExists(db, Get(story, "stories_id").value) ==>
      r == match AddStory(db, story, extras)
           case Success((saved, db')) => Success((Added(saved), db'))
           case Failure(e) => Failure(e)
    ensures HasKey(story, "stories_id") && StoryExists(db, Get(story, "stories_id").value) ==>
      var id := Get(story, "stories_id").value;
      (r.Success? <==> SentencesCountable(story))
      && (r.Success? ==> r.value.0.Updated?
                         && Get(r.value.0.record, "stories_id") == Some(id)
                         && r.value.1.stories == db.stories[id := r.value.0.record])
  {
    var id :- StoryId(story);
    if !StoryExists(db, id) then
      match AddStory(db, story, extras)
      case Success((saved, db')) => Success((Added(saved), db'))
      case Failure(e) => Failure(e)
    else
      var record :- RecordToSave(story, extras, "stories_id", id);
      Success((Updated(record), StoryDatabase(db.stories[id := record])))
  }

  /** Adding a story twice: whenever the first call succeeds (the story has an
      id and is either known or has countable sentences), the second finds it
      and answers False, leaving the store as the first call left it (when the
      extra attributes do not move the story to another id). */
  lemma AddStoryTwice(db: StoryDatabase, story: Record, extras: Record)
    requires UniqueKeys(extras) && !HasKey(extras, "stories_id")
    requires HasKey(story, "stories_id")
    requires StoryExists(db, Get(story, "stories_id").value) || SentencesCountable(story)
    ensures var (_, db1) := AddStory(db, story, extras).value;
            AddStory(db1, story, extras) == Success((false, db1))
  {
    var id := Get(story, "stories_id").value;
    var (added, db1) := AddStory(db, story, extras).value;
    if added {
      var record := RecordToSave(story, extras, "_stories_id", id).value;
      assert Get(record, "stories_id") == Overlay(story, extras, "stories_id");
      assert StoredUnder(record) == id;
    }
    assert StoryExists(db1, id);
  }

  /** After a successful `addStory` or `updateStory`, `storyExists` answers True
      for the story's id (when the extra attributes do not move the story to
      another id). */
  lemma StoryExistsAfterSave(db: StoryDatabase, story: Record, extras: Record)
    requires UniqueKeys(extras) && !HasKey(extras, "stories_id")
    ensures AddStory(db, story, extras).Success? ==>
      StoryExists(AddStory(db, story, extras).value.1, Get(story, "stories_id").value)
    ensures UpdateStory(db, story, extras).Success? ==>
      StoryExists(UpdateStory(db, story, extras).value.1, Get(story, "stories_id").value)
  {
    if HasKey(story, "stories_id") && !StoryExists(db, Get(story, "stories_id").value)
       && SentencesCountable(story) {
      var id := Get(story, "stories_id").value;
      var record := RecordToSave(story, extras, "_stories_id", id).value;
      assert Get(record, "stories_id") == Overlay(story, extras, "stories_id");
      assert StoredUnder(record) == id;
    }
  }

  /** Updating a known story with extra attributes stores a record that keeps
      the story's id and sentence count and carries every extra attribute. */
  lemma UpdateKnownStoryKeeps(db: StoryDatabase, story: Record, extras: Record, k: string)
    requires HasKey(story, "stories_id") && StoryExists(db, Get(story, "stories_id").value)
    requires SentencesCountable(story) && UniqueKeys(extras)
    ensures var id := Get(story, "stories_id").value;
            var stored := UpdateStory(db, story, extras).value.1.stories[id];
            Get(stored, "stories_id") == Some(id)
            && (HasKey(story, "story_sentences") ==>
                  Get(stored, "story_sentences_count") == Some(JInt(Len(Get(story, "story_sentences").value).value)))
            && (HasKey(extras, k) && k != "stories_id" && k != "story_sentences_count" ==>
                  Get(stored, k) == Get(extras, k))
  {
    var id := Get(story, "stories_id").value;
    var record := RecordToSave(story, extras, "stories_id", id).value;
    assert UpdateStory(db, story, extras).value.1.stories[id] == record;
    assert HasKey(extras, k) ==> Overlay(story, extras, k) == Get(extras, k);
  }

  /** Updating a known story twice with the same arguments changes nothing the
      second time. */
  lemma UpdateStoryIdempotent(db: StoryDatabase, story: Record, extras: Record)
    requires HasKey(story, "stories_id") && StoryExists(db, Get(story, "stories_id").value)
    requires SentencesCountable(story)
    ensures var (outcome, db1) := UpdateStory(db, story, extras).value;
            UpdateStory(db1, story, extras) == Success((outcome, db1))
  {
    var id := Get(story, "stories_id").value;
    var (outcome, db1) := UpdateStory(db, story, extras).value;
    var record := RecordToSave(story, extras, "stories_id", id).value;
    assert outcome == Updated(record) && db1.stories == db.stories[id := record];
    assert db1.stories[id := record] == db1.stories;
    assert StoryExists(db1, id);
  }
}

=== FILE: tags.dfy ===
/** The tag-set identifiers the client knows about, and the tag specifications
    used when tagging stories or media: a tag is named either by its id or by its
    tag-set name and tag name, and the id wins when both are given. */
module Tags {
  import opened Wrappers
  import opened Dicts
  import opened PyValues

  // Tag sets holding metadata about media sources.
  const TagSetPublicationCountry: int := 1935
  const TagSetPublicationState: int := 1962
  const TagSetPrimaryLanguage: int := 1969
  const TagSetCountryOfFocus: int := 1970
  const TagSetMediaType: int := 1972
  const MetadataTagSets: seq<int> := [TagSetPublicationCountry, TagSetPublicationState, TagSetPrimaryLanguage,
                                      TagSetCountryOfFocus, TagSetMediaType]

  // Tag sets holding information about stories.
  const TagSetNytThemes: int := 1963
  const TagSetCliffPlaces: int := 1011
  const TagSetCliffOrgs: int := 2388
  const TagSetCliffPeople: int := 2389

  // Tag sets and tags holding metadata about how a story was processed.
  const TagSetDateGuessMethod: int := 508
  const TagSetExtractorVersion: int := 1354
  const TagSetGeocoderVersion: int := 1937
  const TagCliffClavin230: int := 9353691
  const TagCliffClavin241: int := 9696677
  const TagSetNytThemesVersion: int := 1964
  const TagNytLabeler100: int := 9360669
  const TagStoryUndateable: int := 8877812

  const TagActionAdd: string := "add"
  const TagActionRemove: string := "remove"

  /** A `TagSpec`: every field holds whatever the caller passed, `JNull` for
      `None`. */
  datatype TagSpec = TagSpec(tagSetName: Json, tagName: Json, action: Json, tagsId: Json)

  /** The constructor with the action left at its default. */
  function NewTagSpec(tagSetName: Json, tagName: Json, tagsId: Json): (t: TagSpec)
    ensures t.action == JStr(TagActionAdd)
    ensures t.tagSetName == tagSetName && t.tagName == tagName && t.tagsId == tagsId
  {
    TagSpec(tagSetName, tagName, JStr(TagActionAdd), tagsId)
  }

  /** `isSpecifiedByName`: both the tag name and the tag-set name are given. */
  predicate IsSpecifiedByName(t: TagSpec) {
    t.tagName != JNull && t.tagSetName != JNull
  }

  /** `isSpeficiedById`: a tag id is given. */
  predicate IsSpecifiedById(t: TagSpec) {
    t.tagsId != JNull
  }

  /** A spec built by the constructor is specified by id exactly when an id was
      passed, and by name exactly when both names were. */
  lemma NewTagSpecSpecifiedBy(tagSetName: Json, tagName: Json, tagsId: Json)
    ensures IsSpecifiedById(NewTagSpec(tagSetName, tagName, tagsId)) <==> tagsId != JNull
    ensures IsSpecifiedByName(NewTagSpec(tagSetName, tagName, tagsId)) <==> tagName != JNull && tagSetName != JNull
  {
  }

  /** `getBaseParams`: the action, then either `tags_id` or, failing that, `tag`
      and `tag_set` when both names are known. */
  function BaseParams(t: TagSpec): (r: Dict<Json>)
    ensures Get(r, "action") == Some(t.action)
    ensures IsSpecifiedById(t) ==> Get(r, "tags_id") == Some(t.tagsId) && !HasKey(r, "tag") && !HasKey(r, "tag_set")
    ensures HasKey(r, "tags_id") <==> IsSpecifiedById(t)
    ensures HasKey(r, "tag") <==> !IsSpecifiedById(t) && IsSpecifiedByName(t)
    ensures HasKey(r, "tag_set") <==> !IsSpecifiedById(t) && IsSpecifiedByName(t)
    ensures HasKey(r, "tag") ==> Get(r, "tag") == Some(t.tagName) && Get(r, "tag_set") == Some(t.tagSetName)
    ensures !IsSpecifiedById(t) && !IsSpecifiedByName(t) ==> r == [("action", t.action)]
    ensures forall k :: HasKey(r, k) ==> k in BaseParamNames
    ensures UniqueKeys(r)
  {
    if IsSpecifiedById(t) then
      forall k ensures Get([("action", t.action), ("tags_id", t.tagsId)], k)
                    == if k == "action" then Some(t.action) else if k == "tags_id" then Some(t.tagsId) else None {
        GetOfTwo("action", t.action, "tags_id", t.tagsId, k);
      }
      var r := [("action", t.action), ("tags_id", t.tagsId)];
      assert r[1..] == [("tags_id", t.tagsId)];
      GetOfOne("tags_id", t.tagsId, "action");
      assert UniqueKeys(r[1..]);
      r
    else if IsSpecifiedByName(t) then
      var r := [("action", t.action), ("tag", t.tagName), ("tag_set", t.tagSetName)];
      forall k ensures Get(r, k) == if k == "action" then Some(t.action) else if k == "tag" then Some(t.tagName)
                                    else if k == "tag_set" then Some(t.tagSetName) else None {
        GetOfThree("action", t.action, "tag", t.tagName, "tag_set", t.tagSetName, k);
      }
      assert r[1..] == [("tag", t.tagName), ("tag_set", t.tagSetName)];
      assert r[1..][1..] == [("tag_set", t.tagSetName)];
      assert r[1..][1..][1..] == [];
      GetOfTwo("tag", t.tagName, "tag_set", t.tagSetName, "action");
      GetOfOne("tag_set", t.tagSetName, "tag");
      assert UniqueKeys(r[1..][1..]);
      assert UniqueKeys(r[1..]);
      r
    else
      forall k ensures Get([("action", t.action)], k) == if k == "action" then Some(t.action) else None {
        GetOfOne("action", t.action, k);
      }
      [("action", t.action)]
  }

  /** Every key `getBaseParams` can produce. */
  const BaseParamNames: set<string> := {"action", "tags_id", "tag", "tag_set"}

  /** A tag applied to one story (`StoryTag`) or one media source (`MediaTag`). */
  datatype TargetedTag =
    | StoryTag(storiesId: Json, spec: TagSpec)
    | MediaTag(mediaId: Json, spec: TagSpec)

  /** The parameter naming what is tagged. */
  function TargetKey(t: TargetedTag): string {
    match t
    case StoryTag(_, _) => "stories_id"
    case MediaTag(_, _) => "media_id"
  }

  function TargetId(t: TargetedTag): Json {
    match t
    case StoryTag(id, _) => id
    case MediaTag(id, _) => id
  }

  /** `getParams`: a dict holding the story or media id, updated with the base
      parameters.  The id key never clashes with a base key, so the id comes first
      and the base parameters follow in their own order. */
  function TagParams(t: TargetedTag): (r: Dict<Json>)
    ensures r == [(TargetKey(t), TargetId(t))] + BaseParams(t.spec)
    ensures Get(r, TargetKey(t)) == Some(TargetId(t))
    ensures forall k :: k != TargetKey(t) ==> Get(r, k) == Get(BaseParams(t.spec), k)
    ensures UniqueKeys(r)
  {
    var base := BaseParams(t.spec);
    var idParams := [(TargetKey(t), TargetId(t))];
    forall k | HasKey(base, k) ensures !HasKey(idParams, k) {
      assert k in BaseParamNames;
      GetOfOne(TargetKey(t), TargetId(t), k);
    }
    UpdateFreshKeysAppends(idParams, base);
    assert !HasKey(base, TargetKey(t)) by {
      assert TargetKey(t) !in BaseParamNames;
    }
    assert (idParams + base)[1..] == base;
    Update(idParams, base)
  }

  /** A tag given both by id and by name is sent by id alone. */
  lemma IdTakesPrecedence(id: int, tagSetName: string, tagName: string, storiesId: int)
    ensures TagParams(StoryTag(JInt(storiesId), NewTagSpec(JStr(tagSetName), JStr(tagName), JInt(id))))
         == [("stories_id", JInt(storiesId)), ("action", JStr("add")), ("tags_id", JInt(id))]
  {
  }
}

=== FILE: transport.dfy ===
/** The request-dispatch and response-interpretation machinery both client
    versions share: the client configuration, the wire request `_query` hands to
    the HTTP library, the URL-length measure behind the GET-to-POST switch, the
    key and `all_fields` injection, and the checks `_query` and `_queryForJson`
    apply to the response. */
module Transport {
  import opened Wrappers
  import opened Dicts
  import opened PyValues

  /** `MAX_HTTP_GET_CHARS`: the longest request still sent as a GET. */
  const MaxHttpGetChars: nat := 4000

  /** The client's state: the API token (Python allows `None` once constructed)
      and the `all_fields` flag, both set by `setAuthToken` / `setAllFields`. */
  datatype Client = Client(authToken: Option<string>, allFields: bool)

  datatype HttpMethod = GET | POST | PUT

  /** What travels in the request body: nothing, form fields, or a JSON document. */
  datatype Body = NoBody | Form(fields: Dict<Json>) | JsonBody(payload: Json)

  /** One HTTP request as handed to the HTTP library. */
  datatype WireRequest = WireRequest(httpMethod: HttpMethod, url: string, query: Dict<Json>, body: Body)

  /** The headers every request carries: JSON is always accepted, and a JSON body
      is announced as such. */
  function Headers(r: WireRequest): (h: Dict<string>)
    ensures Get(h, "Accept") == Some("application/json")
    ensures HasKey(h, "Content-Type") <==> r.body.JsonBody?
  {
    if r.body.JsonBody? then
      assert "Accept" != "Content-Type";
      [("Accept", "application/json"), ("Content-Type", "application/json")]
    else [("Accept", "application/json")]
  }

  /** The parameters a caller hands to `_query`: normally a dict; `mediaCreate`
      passes a list of media records instead. */
  datatype Params = DictParams(d: Dict<Json>) | ListParams(items: seq<Json>)

  function ParamsJson(p: Params): Json {
    match p
    case DictParams(d) => JObj(d)
    case ListParams(items) => JArr(items)
  }

  /** The parameters the server receives as key/value pairs, wherever in the
      request (query string or form body) they travel. */
  function SentParams(r: WireRequest): Dict<Json> {
    r.query + (if r.body.Form? then r.body.fields else [])
  }

  function KeysLength(d: Dict<Json>): nat {
    if d == [] then 0 else |d[0].0| + KeysLength(d[1..])
  }

  function ValuesLength(d: Dict<Json>): nat {
    if d == [] then 0 else |Str(d[0].1)| + ValuesLength(d[1..])
  }

  /** `_url_length(url, params)`: the URL's length plus the length of every key
      and of every value's `str`, counted in characters. */
  function UrlLength(url: string, d: Dict<Json>): (r: nat)
    ensures r >= |url|
    ensures d == [] ==> r == |url|
  {
    |url| + KeysLength(d) + ValuesLength(d)
  }

  /** Every parameter counts: its key and its rendered value are both part of
      the measure. */
  lemma {:induction false} UrlLengthCountsEach(url: string, d: Dict<Json>, i: nat)
    requires i < |d|
    ensures UrlLength(url, d) >= |url| + |d[i].0| + |Str(d[i].1)|
  {
    if i > 0 {
      UrlLengthCountsEach(url, d[1..], i - 1);
      assert d[1..][i - 1] == d[i];
    }
  }

  /** Adding a new parameter grows the measure by exactly its key and rendered value. */
  lemma {:induction false} UrlLengthAppend(url: string, d: Dict<Json>, k: string, v: Json)
    ensures UrlLength(url, d + [(k, v)]) == UrlLength(url, d) + |k| + |Str(v)|
  {
    AppendLengths(d, k, v);
  }

  lemma {:induction false} AppendLengths(d: Dict<Json>, k: string, v: Json)
    ensures KeysLength(d + [(k, v)]) == KeysLength(d) + |k|
    ensures ValuesLength(d + [(k, v)]) == ValuesLength(d) + |Str(v)|
  {
    if d != [] {
      assert (d + [(k, v)])[1..] == d[1..] + [(k, v)];
      AppendLengths(d[1..], k, v);
    }
  }

  /** The GET branch of `_query`: a GET with the parameters on the query string,
      or, once the measured length passes `MAX_HTTP_GET_CHARS`, a POST carrying
      the very same parameters as form fields. */
  function GetOrFormPost(url: string, d: Dict<Json>): (r: WireRequest)
    ensures r.url == url
    ensures r.httpMethod == POST <==> UrlLength(url, d) > MaxHttpGetChars
    ensures r.httpMethod == GET || r.httpMethod == POST
    ensures SentParams(r) == d
    ensures r.httpMethod == GET ==> r.body == NoBody
    ensures r.httpMethod == POST ==> r.query == [] && r.body.Form?
  {
    if UrlLength(url, d) > MaxHttpGetChars then WireRequest(POST, url, [], Form(d))
    else WireRequest(GET, url, d, NoBody)
  }

  /** The first two steps of `_query`: add `key` = token unless the caller already
      supplied a `key` or the verb is the one that carries the key in the URL
      (`urlKeyVerb`), then set `all_fields` = 1 when the client's flag is on.
      Assigning into a list raises TypeError. */
  function InjectAuth(client: Client, params: Params, verb: string, urlKeyVerb: string): (r: Py<Params>)
    ensures params.DictParams? ==> r.Success? && r.value.DictParams?
    ensures params.DictParams? ==>
      Get(r.value.d, "key") == if HasKey(params.d, "key") then Get(params.d, "key")
                               else if verb != urlKeyVerb then Some(OptStr(client.authToken))
                               else None
    ensures params.DictParams? ==>
      Get(r.value.d, "all_fields") == if client.allFields then Some(JInt(1)) else Get(params.d, "all_fields")
    ensures params.DictParams? ==> Keys(params.d) <= Keys(r.value.d)
    ensures params.ListParams? ==>
      (r.Success? <==> (JStr("key") in params.items || verb == urlKeyVerb) && !client.allFields)
    ensures params.ListParams? && r.Success? ==> r.value == params
  {
    match params
    case DictParams(d) =>
      var withKey := if !HasKey(d, "key") && verb != urlKeyVerb then Set(d, "key", OptStr(client.authToken)) else d;
      var withAll := if client.allFields then Set(withKey, "all_fields", JInt(1)) else withKey;
      SetExtendsKeys(d, "key", OptStr(client.authToken));
      SetExtendsKeys(withKey, "all_fields", JInt(1));
      Success(DictParams(withAll))
    case ListParams(items) =>
      if JStr("key") !in items && verb != urlKeyVerb then Failure(TypeError)
      else if client.allFields then Failure(TypeError)
      else Success(params)
  }

  /** Authentication touches no parameter other than `key` and `all_fields`. */
  lemma InjectAuthKeeps(client: Client, d: Dict<Json>, verb: string, urlKeyVerb: string, k: string)
    requires k != "key" && k != "all_fields"
    ensures Get(InjectAuth(client, DictParams(d), verb, urlKeyVerb).value.d, k) == Get(d, k)
  {
  }

  lemma SetExtendsKeys(d: Dict<Json>, k: string, v: Json)
    ensures Keys(d) <= Keys(Set(d, k, v))
  {
    if !HasKey(d, k) {
      KeysAppend(d, (k, v));
    }
  }

  lemma {:induction false} KeysAppend(d: Dict<Json>, e: (string, Json))
    ensures Keys(d + [e]) == Keys(d) + [e.0]
  {
    if d != [] {
      assert (d + [e])[1..] == d[1..] + [e];
      KeysAppend(d[1..], e);
    }
  }

  /** A response as the HTTP library delivers it: status, reason phrase, raw text
      and, when the body parses, the decoded JSON. */
  datatype Response = Response(status: int, reason: string, text: string, json: Option<Json>)

  const HttpOk: int := 200

  function HttpErrorMessage(status: int, reason: string, text: string): string {
    "Error - got a HTTP status code of " + IntToString(status) + " with the message \"" + reason
    + "\", body: " + text
  }

  /** The envelope check of `_queryForJson`: `'error' in body` decides, and
      `body['error']` becomes the message of an MCException with status 200.
      Only a dict gets that far; a list holding the string "error" or a string
      containing it passes the `in` test and then fails on the subscript, and a
      number, boolean or null does not support `in` at all. */
  function CheckErrorEnvelope(body: Json): (r: Py<Json>)
    ensures body.JObj? && HasKey(body.fields, "error") ==>
      r == Failure(MCException(Get(body.fields, "error").value, HttpOk))
    ensures body.JArr? && JStr("error") in body.items ==> r == Failure(TypeError)
    ensures body.JStr? && IsSubstring("error", body.s) ==> r == Failure(TypeError)
    ensures body.JNull? || body.JBool? || body.JInt? ==> r == Failure(TypeError)
    ensures r.Success? <==> !ErrorEnvelope(body) && (body.JObj? || body.JArr? || body.JStr?)
    ensures r.Success? ==> r.value == body
  {
    match Contains(body, "error")
    case Failure(e) => Failure(e)
    case Success(hasError) =>
      if hasError then
        match Index(body, "error")
        case Success(message) => Failure(MCException(message, HttpOk))
        case Failure(e) => Failure(e)
      else Success(body)
  }

  /** The bodies for which `'error' in body` holds. */
  predicate ErrorEnvelope(body: Json) {
    match body
    case JObj(fields) => HasKey(fields, "error")
    case JArr(items) => JStr("error") in items
    case JStr(s) => IsSubstring("error", s)
    case _ => false
  }

  /** What `_queryForJson` makes of a response: a non-200 status raises an
      MCException carrying that status (the check at the end of `_query`); a body
      that does not parse raises ValueError; otherwise the envelope check decides. */
  function Interpret(resp: Response): (r: Py<Json>)
    ensures resp.status != HttpOk ==>
      r == Failure(MCException(JStr(HttpErrorMessage(resp.status, resp.reason, resp.text)), resp.status))
    ensures resp.status == HttpOk && resp.json.None? ==> r.Failure? && r.error.ValueError?
    ensures r.Success? <==> resp.status == HttpOk && resp.json.Some? && CheckErrorEnvelope(resp.json.value).Success?
    ensures r.Success? ==> r.value == resp.json.value && !ErrorEnvelope(r.value)
  {
    if resp.status != HttpOk then
      Failure(MCException(JStr(HttpErrorMessage(resp.status, resp.reason, resp.text)), resp.status))
    else
      match resp.json
      case None => Failure(ValueError("No JSON object could be decoded"))
      case Some(body) => CheckErrorEnvelope(body)
  }

  /** A well-formed error envelope delivered with status 200 is never handed back
      as a result: it becomes an MCException carrying the server's message. */
  lemma ErrorEnvelopeRaises(message: string, reason: string, text: string)
    ensures Interpret(Response(HttpOk, reason, text, Some(JObj([("error", JStr(message))]))))
         == Failure(MCException(JStr(message), HttpOk))
  {
    assert HasKey([("error", JStr(message))], "error");
  }

  function UnsupportedMethodMessage(verb: string): string {
    "Error - unsupported HTTP method " + verb
  }

  /** `url + "?key=" + token`, which raises TypeError when the token is None. */
  function UrlWithKey(client: Client, url: string): (r: Py<string>)
    ensures r.Success? <==> client.authToken.Some?
    ensures r.Success? ==> r.value == url + "?key=" + client.authToken.value
  {
    match client.authToken
    case None => Failure(TypeError)
    case Some(token) => Success(url + "?key=" + token)
  }

  /** A list of records as the JSON list a request body carries. */
  function ObjectsOf(items: seq<Dict<Json>>): (r: seq<Json>)
    ensures |r| == |items| && forall i :: 0 <= i < |items| ==> r[i] == JObj(items[i])
  {
    seq(|items|, i requires 0 <= i < |items| => JObj(items[i]))
  }
}

=== FILE: values.dfy ===
/** The Python values the client passes around: parameter values, decoded JSON
    response bodies and story records are all modelled by one `Json` datatype,
    together with the few pieces of Python semantics the request-shaping code
    relies on (`==` between booleans and integers, truthiness, `len`, `in`,
    subscripting, iteration and `str`). */
module PyValues {
  import opened Wrappers
  import opened Dicts

  /** A Python value as it appears in parameters and in decoded JSON.
      `JNull` is `None`. */
  datatype Json =
    | JNull
    | JBool(b: bool)
    | JInt(i: int)
    | JStr(s: string)
    | JArr(items: seq<Json>)
    | JObj(fields: Dict<Json>)

  /** The exceptions the modelled code raises.  `MCException` is the client's own
      exception class (a message and an HTTP status, 0 when none applies). */
  datatype Raised =
    | MCException(message: Json, status: int)
    | ValueError(text: string)
    | TypeError
    | KeyError(key: string)
    | AttributeError

  /** The outcome of a Python call that returns a `T` or raises. */
  type Py<T> = Result<T, Raised>

  /** Python's `None`-or-string, as used for the API token. */
  function OptStr(s: Option<string>): Json {
    match s
    case None => JNull
    case Some(t) => JStr(t)
  }

  /** Python `==`.  `True == 1` and `False == 0` hold in Python, so booleans and
      integers compare by numeric value; every other pair compares structurally.
      (Containers that differ only by a bool/int swap inside are the one case this
      does not follow; no allow-list in the client holds containers.) */
  predicate PyEq(a: Json, b: Json) {
    if (a.JBool? || a.JInt?) && (b.JBool? || b.JInt?) then NumValue(a) == NumValue(b)
    else a == b
  }

  function NumValue(a: Json): int
    requires a.JBool? || a.JInt?
  {
    if a.JInt? then a.i else if a.b then 1 else 0
  }

  /** Python `x in xs` for a list `xs`. */
  predicate PyIn(x: Json, xs: seq<Json>) {
    exists i :: 0 <= i < |xs| && PyEq(x, xs[i])
  }

  /** Python truthiness (`if v:`). */
  predicate Truthy(v: Json) {
    match v
    case JNull => false
    case JBool(b) => b
    case JInt(i) => i != 0
    case JStr(s) => |s| > 0
    case JArr(items) => |items| > 0
    case JObj(fields) => |fields| > 0
  }

  /** Python `len(v)`; scalars have no length. */
  function Len(v: Json): (r: Py<nat>)
    ensures r.Success? <==> (v.JStr? || v.JArr? || v.JObj?)
  {
    match v
    case JStr(s) => Success(|s|)
    case JArr(items) => Success(|items|)
    case JObj(fields) => Success(|fields|)
    case _ => Failure(TypeError)
  }

  /** Python `v[key]` with a string key: a dict lookup, a TypeError for lists and
      strings (their indices must be integers) and for non-subscriptable scalars. */
  function Index(v: Json, key: string): (r: Py<Json>)
    ensures r.Success? <==> v.JObj? && HasKey(v.fields, key)
    ensures r.Success? ==> Get(v.fields, key) == Some(r.value)
    ensures v.JObj? && !HasKey(v.fields, key) ==> r == Failure(KeyError(key))
  {
    match v
    case JObj(fields) =>
      (match Get(fields, key)
       case Some(x) => Success(x)
       case None => Failure(KeyError(key)))
    case _ => Failure(TypeError)
  }

  predicate IsPrefix(p: string, s: string) {
    |p| <= |s| && s[..|p|] == p
  }

  /** Python `p in s` for strings: `p` occurs in `s` as a contiguous substring. */
  predicate IsSubstring(p: string, s: string)
    decreases |s|
  {
    IsPrefix(p, s) || (|s| > 0 && IsSubstring(p, s[1..]))
  }

  /** Where a substring occurs. */
  lemma {:induction false} SubstringIndex(p: string, s: string) returns (i: nat)
    requires IsSubstring(p, s)
    ensures i + |p| <= |s| && s[i..i + |p|] == p
    decreases |s|
  {
    if IsPrefix(p, s) {
      i := 0;
    } else {
      var j := SubstringIndex(p, s[1..]);
      assert s[1..][j..j + |p|] == s[j + 1..j + 1 + |p|];
      i := j + 1;
    }
  }

  /** A string occurs in any string holding it at some position. */
  lemma {:induction false} SubstringAt(p: string, s: string, i: nat)
    requires i + |p| <= |s| && s[i..i + |p|] == p
    ensures IsSubstring(p, s)
    decreases i
  {
    if i == 0 {
      assert s[..|p|] == p;
    } else {
      assert s[1..][i - 1..i - 1 + |p|] == s[i..i + |p|];
      SubstringAt(p, s[1..], i - 1);
    }
  }

  /** A substring stays one when text is added around it. */
  lemma SubstringExtend(p: string, s: string, before: string, after: string)
    requires IsSubstring(p, s)
    ensures IsSubstring(p, before + s + after)
  {
    var i := SubstringIndex(p, s);
    var t := before + s + after;
    assert t[|before| + i..|before| + i + |p|] == s[i..i + |p|];
    SubstringAt(p, t, |before| + i);
  }

  /** A string cannot occur inside one that lacks one of its characters. */
  lemma {:induction false} MissingCharNotSubstring(p: string, s: string, j: nat)
    requires j < |p| && p[j] !in s
    ensures !IsSubstring(p, s)
    decreases |s|
  {
    if |p| <= |s| {
      assert s[..|p|][j] == s[j] && s[j] in s;
    }
    if |s| > 0 {
      assert forall c :: c in s[1..] ==> c in s;
      MissingCharNotSubstring(p, s[1..], j);
    }
  }

  /** Python `x in container` for a string `x`: key membership for a dict, element
      membership for a list, substring for a string, TypeError otherwise. */
  function Contains(container: Json, x: string): (r: Py<bool>)
    ensures r.Success? <==> (container.JObj? || container.JArr? || container.JStr?)
    ensures container.JObj? ==> r == Success(HasKey(container.fields, x))
    ensures container.JArr? ==> r == Success(JStr(x) in container.items)
  {
    match container
    case JObj(fields) => Success(HasKey(fields, x))
    case JArr(items) =>
      assert PyIn(JStr(x), items) <==> JStr(x) in items by {
        if JStr(x) in items {
          var i :| 0 <= i < |items| && items[i] == JStr(x);
          assert PyEq(JStr(x), items[i]);
        }
      }
      Success(PyIn(JStr(x), items))
    case JStr(s) => Success(IsSubstring(x, s))
    case _ => Failure(TypeError)
  }

  /** The values a Python `for` loop over `v` visits: the elements of a list, the
      keys of a dict, the one-character strings of a string. */
  function Iterate(v: Json): (r: Py<seq<Json>>)
    ensures v.JArr? ==> r == Success(v.items)
    ensures r.Success? <==> (v.JArr? || v.JObj? || v.JStr?)
    ensures r.Success? ==> |r.value| == if v.JArr? then |v.items| else if v.JObj? then |v.fields| else |v.s|
  {
    match v
    case JArr(items) => Success(items)
    case JObj(fields) => Success(seq(|fields|, i requires 0 <= i < |fields| => JStr(fields[i].0)))
    case JStr(s) => Success(seq(|s|, i requires 0 <= i < |s| => JStr([s[i]])))
    case _ => Failure(TypeError)
  }

  function DigitChar(n: int): char
    requires 0 <= n < 10
  {
    (48 + n) as char
  }

  /** Decimal rendering of a natural number, without leading zeros. */
  function NatToString(n: nat): (r: string)
    ensures |r| >= 1
    ensures forall i :: 0 <= i < |r| ==> '0' <= r[i] <= '9'
  {
    if n < 10 then [DigitChar(n)] else NatToString(n / 10) + [DigitChar(n % 10)]
  }

  /** Python `str(i)` for an integer. */
  function IntToString(i: int): string {
    if i < 0 then "-" + NatToString(-i) else NatToString(i)
  }

  function Join(sep: string, parts: seq<string>): string {
    if parts == [] then ""
    else if |parts| == 1 then parts[0]
    else parts[0] + sep + Join(sep, parts[1..])
  }

  /** Each part occurs in the joined string. */
  lemma {:induction false} JoinHasPart(sep: string, parts: seq<string>, i: nat)
    requires i < |parts|
    ensures IsSubstring(parts[i], Join(sep, parts))
    decreases |parts|
  {
    if |parts| == 1 {
      SubstringAt(parts[0], parts[0], 0);
    } else if i == 0 {
      SubstringExtend(parts[0], parts[0], "", sep + Join(sep, parts[1..]));
      assert "" + parts[0] + (sep + Join(sep, parts[1..])) == Join(sep, parts);
    } else {
      JoinHasPart(sep, parts[1..], i - 1);
      SubstringExtend(parts[i], Join(sep, parts[1..]), parts[0] + sep, "");
      assert parts[0] + sep + Join(sep, parts[1..]) + "" == Join(sep, parts);
    }
  }

  /** Python `str(v)` (the `"{}".format(v)` the client uses to measure values).
      Strings render as themselves, the scalars as Python prints them, and
      containers as their `repr`. */
  function Str(v: Json): string {
    match v
    case JStr(s) => s
    case _ => Repr(v)
  }

  /** Python `repr(v)`.  Strings are quoted with single quotes; escaping of quote
      and control characters inside them is not modelled. */
  function Repr(v: Json): string
    decreases v, 1
  {
    match v
    case JNull => "None"
    case JBool(b) => if b then "True" else "False"
    case JInt(i) => IntToString(i)
    case JStr(s) => "'" + s + "'"
    case JArr(items) => "[" + Join(", ", ReprItems(items, v)) + "]"
    case JObj(fields) =>
      assert forall i :: 0 <= i < |fields| ==> fields[i].1 < fields[i];
      "{" + Join(", ", ReprFields(fields, v)) + "}"
  }

  function ReprItems(items: seq<Json>, ghost parent: Json): seq<string>
    requires forall i :: 0 <= i < |items| ==> items[i] < parent
    decreases parent, 0, |items|
  {
    if items == [] then [] else [Repr(items[0])] + ReprItems(items[1..], parent)
  }

  function ReprFields(fields: Dict<Json>, ghost parent: Json): seq<string>
    requires forall i :: 0 <= i < |fields| ==> fields[i].1 < parent
    decreases parent, 0, |fields|
  {
    if fields == [] then []
    else ["'" + fields[0].0 + "': " + Repr(fields[0].1)] + ReprFields(fields[1..], parent)
  }
}

=== FILE: wrappers.dfy ===
/** Option and Result, the failure-compatible wrappers every other module uses.
    A Python function that may raise is modelled as a function returning a Result
    whose Failure carries the raised exception. */
module Wrappers {

  datatype Option<+T> = None | Some(value: T) {
    predicate IsFailure() { None? }

    function PropagateFailure<U>(): Option<U>
      requires None?
    {
      None
    }

    function Extract(): T
      requires Some?
    {
      value
    }
  }

  datatype Result<+T, +E> = Success(value: T) | Failure(error: E) {
    predicate IsFailure() { Failure? }

    function PropagateFailure<U>(): Result<U, E>
      requires Failure?
    {
      Failure(error)
    }

    function Extract(): T
      requires Success?
    {
      value
    }
  }

  /** Run a sequence of fallible steps in order: all their values when every
      step succeeds, otherwise the error of the first step that fails. */
  function AllOk<T, E>(rs: seq<Result<T, E>>): (r: Result<seq<T>, E>)
    ensures r.Success? <==> forall i :: 0 <= i < |rs| ==> rs[i].Success?
    ensures r.Success? ==> |r.value| == |rs| && forall i :: 0 <= i < |rs| ==> r.value[i] == rs[i].value
    ensures r.Failure? ==> exists i :: 0 <= i < |rs| && rs[i] == Failure(r.error)
                                       && forall j :: 0 <= j < i ==> rs[j].Success?
  {
    if rs == [] then Success([])
    else
      assert forall i :: 0 < i < |rs| ==> rs[i] == rs[1..][i - 1];
      match rs[0]
      case Failure(e) => Failure(e)
      case Success(first) =>
        match AllOk(rs[1..])
        case Failure(e) =>
          assert exists i :: 1 <= i < |rs| && rs[i] == Failure(e) && forall j :: 0 <= j < i ==> rs[j].Success? by {
            var i :| 0 <= i < |rs[1..]| && rs[1..][i] == Failure(e) && forall j :: 0 <= j < i ==> rs[1..][j].Success?;
            assert rs[i + 1] == Failure(e);
            assert forall j :: 1 <= j < i + 1 ==> rs[j] == rs[1..][j - 1];
          }
          Failure(e)
        case Success(rest) => Success([first] + rest)
  }
}
